=== FILE: README.md ===
# Gift-store API: checkout state, accounts and reviews

This project models the server-side state logic of the gift-store API in Dafny. It covers:

- the cart store, keyed by owner, with create, read, address update, coupon application, delete and clear-all;
- order creation, which consumes the owner's cart;
- the coupon store, with create, delete and the newest-first listing;
- the account decisions of the user routes: registration, e-mail verification, login and its failure message, password reset, and the role and status updates;
- the review store, with add-or-update per (user, product), patch, delete, the public and admin listings, and the per-product listing sorted by rating;
- the validators, defaults and setters of the cart, order, coupon, user and review schemas;
- the client-side cart reducer (`addToCart`, `updateCartProductColor`, `updateCartProductCount`).

Each route handler is a pure function from the collections it touches to a `Reply(state, result)`.
`result` is `Ok(document)` or an error variant named after the handler's response.
The carts collection is a map from owner id to cart; users, coupons and reviews are sequences in the
database's natural order, so `findOne` is "the first match".

Mongoose behaviour the model relies on:

- `save()` runs the validators; `findOneAndUpdate` and `findByIdAndUpdate` run none of them, since no
  route passes `runValidators`.
- Strict mode drops keys the schema does not declare: the cart's `title`, the user's `gender`, the
  `staus` key of the verification update, and a review's `userName`.
- The `trim` and `uppercase` setters run on new documents, on update values and on query values.
- A key whose value is `undefined` is dropped from an update, so the field keeps its old value.
- The same holds for a query filter built from a request body. A key the body leaves out constrains
  nothing, so `findOne({ email: undefined })` is `findOne({})` and picks the first document. The model
  gives each such body value the type `Option<string>`; `Collections.KeyMatches` says that `None`
  matches every value. `findById` alone turns an absent id into `null`. The model reads
  `findByIdAndUpdate` as building `{ _id: id }` without that step, so PATCH `/reviews` without `_id`
  also picks the first review.
- An address sub-document set to `{}` is still validated at `save()`.
- Fresh `_id`s, the clock, password hashing and comparison, and database write failures are parameters
  of the handlers that use them. The verification and reset routes take the session collection as it
  stands before the call.

Money is an exact `real`. `Number#toFixed(2)` is `Money.RoundCents`, which rounds the magnitude to cents
with halves going away from zero.

The code has no stock reservation, no cart version, no coupon-expiry check and no idempotency key, and
neither has the model.

## Model

| member | source | states |
|---|---|---|
| Text.Trim | src/models/cart/cartSchema.js:6-23 | The `trim` setter's result has no white space at either end and is no longer than its input. |
| Text.TrimIsSlice | src/models/cart/cartSchema.js:6-23 | The trimmed string is a contiguous slice of the input with only white space outside it. |
| Text.Utf16Length | src/models/coupon/couponSchema.js:11-12 | The length `minlength` and `maxlength` compare against counts UTF-16 code units: at least one and at most two per character. |
| Text.Utf16LengthOfBmp | src/models/coupon/couponSchema.js:11-12 | When every character is in the Basic Multilingual Plane, the code-unit length the bounds compare is exactly the character count. |
| Text.TrimOfTrimmed | src/models/coupon/couponSchema.js:7 | The `trim` setter leaves an already trimmed value as it is. |
| Text.UpperIdempotent | src/models/coupon/couponSchema.js:9 | The `uppercase` setter is idempotent and leaves no lower-case letter; it changes a string exactly when the string has a lower-case letter. |
| Text.UpperKeepsTrimmed | src/models/coupon/couponSchema.js:7-9 | Upper-casing a trimmed value keeps it trimmed and leaves no lower-case letter. |
| Text.UpperTrimCommute | src/models/coupon/couponSchema.js:7-9 | Upper-casing and trimming commute, so the order in which the two setters run does not matter. |
| Money.RoundCents | src/routers/cartRouter.js:84 | `toFixed(2)` gives a whole number of cents within half a cent of the input, keeps the sign, and leaves whole cents unchanged. |
| Money.RoundCentsMonotone | src/routers/cartRouter.js:228 | Rounding to cents never reverses the order of two amounts. |
| Money.DiscountBounds | src/routers/cartRouter.js:221-228 | A discount of 0 to 100 percent keeps a non-negative whole-cent total between zero and its old value. |
| Money.DiscountOverHundredGoesNegative | src/models/coupon/couponSchema.js:18-21 | The discount has no declared range: 150 percent off 10.00 gives -5.00. |
| Money.DiscountCompounds | src/routers/cartRouter.js:221-228 | 10 percent off 100.00 gives 90.00; applied again it gives 81.00. |
| Money.Discount | src/routers/cartRouter.js:221-228 | The new total is the old total less `discount` percent of it, rounded to cents by `toFixed(2)`. |
| Collections.FirstIndex | src/utils/Untitled-1.js:11 | `findIndex` and `findOne` return the first position whose element matches, and none exactly when nothing matches. |
| Collections.FindFirst | src/models/user/UserModel.js:9-11 | `findOne` returns the element at the first matching position, and nothing exactly when no document matches. |
| Collections.Filter | src/routers/cartRouter.js:108 | `filter` keeps exactly the elements that satisfy the test. |
| Collections.FilterCount | src/routers/reviewRouter.js:128 | Filtering keeps each matching element as many times as it occurs, and drops every other one. |
| Collections.FilterKeepsOrder | src/routers/cartRouter.js:108 | Filtering a list that is ordered by a relation gives a list ordered by the same relation. |
| Collections.RemoveAt | src/routers/couponRouter.js:36 | Deleting one document keeps the others in order and removes exactly one occurrence. |
| Sorting.SortDesc | src/routers/couponRouter.js:58 | The sort yields a non-increasing permutation of its input. |
| Sorting.SortDescStable | src/routers/reviewRouter.js:148 | The sort is stable: elements with equal keys keep their relative order. |
| UserSchema.FindByEmailUnique | src/models/user/UserSchema.js:32-37 | Under the unique index, looking a stored user up by email finds that user. |
| UserSchema.SaveUser | src/models/user/UserSchema.js:19-41 | `save()` succeeds iff the required fields are present and neither email nor id is taken; it appends the user and keeps emails and ids unique. |
| UserSchema.UpdateFirst | src/models/user/UserModel.js:24-35 | `findOneAndUpdate` changes only the first matching user, leaves every non-matching user alone, and reports no match. |
| UserSchema.NewUser | src/models/user/UserSchema.js:2-58 | A new user takes the fields supplied; absent ones default to status "inactive", role "user", an empty refresh token and an unverified email. |
| UserSchema.ValidUser | src/models/user/UserSchema.js:19-41 | First name, last name, email and password are required. |
| UserSchema.ReplaceKeepsIndexes | src/models/user/UserSchema.js:32-37 | Rewriting one user without changing its email or id keeps both unique indexes. |
| UserSchema.EmailKeyLookup | src/models/user/UserModel.js:8-11 | The email filter built from a body matches a user iff the email is absent or equal. A present email looks the user up by that email; an absent one finds the first user, or none in an empty collection. |
| SessionStore.EmptyQueryMatchesAny | src/routers/userRouter.js:115-118 | A session filter with every key absent finds a session iff one is stored, and finds the first. |
| SessionStore.CodeOmittedMatchesPending | src/routers/userRouter.js:326-330 | The reset filter without a code finds a session whenever a code is pending for that email, and the session it finds belongs to that email. |
| UserRouter.CurrentUser | src/routers/userRouter.js:35-55 | GET `/` succeeds iff the account is active, and then returns the record with its refresh token blanked. |
| UserRouter.RegisterFields | src/routers/userRouter.js:57-71 | An invalid gender is refused before any insert; otherwise the user is saved with the hashed password and the defaults, and emails stay unique. |
| UserRouter.Register | src/routers/userRouter.js:60-71 | The body's own `status`, `role`, `isEmailVerified` and `refreshJWT` reach the new document; absent ones take the defaults. |
| UserRouter.RegisterCorrected | src/routers/userRouter.js:60-71 | With the account-state fields and the refresh token stripped, every new account is inactive, a plain user, unverified, and has an empty refresh token. |
| UserRouter.Login | src/routers/userRouter.js:147-187 | Login succeeds iff the user the body's email picks exists, is active, is verified, and the password matches; an absent email picks the first user. On failure, "not verified" beats "not active", which beats "Invalid login details". |
| UserRouter.VerifyEmail | src/routers/userRouter.js:109-143 | Verification succeeds iff the link's filter `{ token, associate }` finds a session and the email filter finds a user. That user, at its own position, gets `isEmailVerified` and keeps its status; users the filter does not match are unchanged. |
| UserRouter.VerifyEmailCorrected | src/routers/userRouter.js:120-126 | The intended update also sets the status to active, with the same filters and the same write-back. |
| UserRouter.ResetGuardCorrected | src/routers/userRouter.js:322-323 | The intended guard admits only requests the written guard admits. The two differ on exactly the requests that carry a password but lack, or leave empty, the email or the code. |
| UserRouter.ResetPassword | src/routers/userRouter.js:320-358 | Reset succeeds iff a password is given, the filter `{ token: otp, associate: email, type: "otp" }` finds a session, and the email filter finds a user. Absent keys are dropped from both filters. The store then holds that user, at its own position, with the new hash; users the filter does not match are unchanged. |
| UserRouter.ResetPasswordCorrected | src/routers/userRouter.js:320-358 | With the intended guard, a reset also needs a non-empty email and code, and then rewrites exactly the user with that email. When it succeeds it writes exactly what the written reset writes. |
| UserRouter.UpdateRole | src/routers/userRouter.js:415-461 | The guards run in order: missing role, a role other than "admin" or "user", unknown user. On success the store holds that user, at its own position, with the new role; other users are unchanged. |
| UserRouter.UpdateStatus | src/routers/userRouter.js:464-512 | The guards run in order: missing status, a status other than active or inactive, unknown user. On success the store holds that user, at its own position, with the new status; other users are unchanged. |
| UserRouter.ResetGuard | src/routers/userRouter.js:323 | The written guard is the value of its last operand: it holds iff the password is present and non-empty. |
| UserRouter.MayLogIn | src/routers/userRouter.js:154-159 | A user may sign in iff the account is active, the email is verified, and the password matches the hash. |
| AccountLifecycle.RegisteredIsFound | src/routers/userRouter.js:71 | After a registration, looking the email up finds the new user. |
| AccountLifecycle.DefaultRegistrationCannotLogIn | src/models/user/UserSchema.js:46-49 | A user registered without `isEmailVerified` cannot log in with any password. |
| AccountLifecycle.MassAssignmentLogsIn | src/routers/userRouter.js:71 | A body that sets status, role and verification registers an active, verified admin who logs in at once. |
| AccountLifecycle.CorrectedRegistrationCannotLogIn | src/routers/userRouter.js:71 | After the corrected registration, login fails with the not-verified message. |
| AccountLifecycle.VerifiedAccountStaysLockedOut | src/routers/userRouter.js:73-126 | Registering with the default status and then following the mailed link, whose session registration issued, still leaves login refused with the not-active message. |
| AccountLifecycle.VerifiedAccountCanLogIn | src/routers/userRouter.js:73-126 | After the corrected registration and verification through the mailed link, login succeeds iff the password matches the stored hash. |
| AccountLifecycle.ResetGuardIgnoresEmailAndOtp | src/routers/userRouter.js:323 | The guard as written holds iff the password is present, so it admits a request that leaves out both the email and the code. |
| AccountLifecycle.ResetWithoutCodeTakesOver | src/routers/userRouter.js:320-338 | A reset body with a user's email and a new password but no code consumes any code pending for that email and sets that user's password. The intended guard refuses the same body. |
| AccountLifecycle.ResetWithoutEmailRewritesFirstUser | src/routers/userRouter.js:320-338 | A reset body with only a new password, sent while any reset code is pending, sets the password of the first user in the collection. The intended guard refuses it. |
| AccountLifecycle.VerifyWithEmptyBodyVerifiesFirstUser | src/routers/userRouter.js:109-126 | An empty verification body consumes any stored session and marks the first user in the collection verified. |
| AccountLifecycle.LoginWithoutEmailChecksFirstUser | src/routers/userRouter.js:147-180 | A login body without an email signs in iff the first user in the collection may sign in with the password; that user's state picks the failure message. |
| AccountLifecycle.IssuedLinkMatches | src/routers/userRouter.js:75-81 | The session registration issues is found by the filter of the link it mails. |
| AccountLifecycle.AdminUpdatesKeepIndexes | src/routers/userRouter.js:444 | The role and status updates keep emails and ids unique. |
| AccountLifecycle.ResetKeepsIndexes | src/routers/userRouter.js:335-338 | A password reset keeps emails and ids unique. |
| AccountLifecycle.StatusUpdateDecidesLogin | src/routers/userRouter.js:495 | Once an administrator sets a user's status, that user logs in iff the status is "active", the email is verified and the password matches. |
| AccountLifecycle.ResetThenLogIn | src/routers/userRouter.js:335-338 | After a reset, logging in with the same email key and the new password succeeds iff the rewritten account is active and verified and the new password matches its own hash. This holds with or without an email in the body. |
| CartSchema.TrimLines | src/models/cart/cartSchema.js:41-58 | Every line of a new cart goes through the line setters, position by position. |
| CartSchema.PatternExamples | src/models/cart/cartSchema.js:10-22 | The ZIP and phone patterns accept 5 digits, ZIP+4 and 7 to 20 allowed characters, and reject near misses. |
| CartSchema.PatternValuesAreTrimmed | src/models/cart/cartSchema.js:10-22 | A value that matches either pattern is left as it is by the `trim` setter. |
| CartSchema.BlankStreetIsInvalid | src/models/cart/cartSchema.js:7 | A blank street, as in the `{}` address, is empty after the setter and fails the validators. |
| CartSchema.SampleAddressIsValid | src/models/cart/cartSchema.js:6-23 | An address without `unitNumber` can pass the validators, because that field is optional. |
| CartSchema.TrimAddress | src/models/cart/cartSchema.js:6-23 | Every address field passes through the `trim` setter. |
| CartSchema.IsZipCode | src/models/cart/cartSchema.js:13 | A ZIP code is five digits, optionally followed by a hyphen and four more digits. |
| CartSchema.IsPhoneNumber | src/models/cart/cartSchema.js:20 | A phone number is 7 to 20 characters, each a digit or one of `-`, `+`, `(`, `)`. |
| CartSchema.ValidAddress | src/models/cart/cartSchema.js:4-26 | Street, city, state, ZIP code, country and phone are required; ZIP and phone must match their patterns; the message is at most 500 UTF-16 code units; `unitNumber` is optional. |
| CartSchema.ValidLine | src/models/cart/cartSchema.js:29-61 | A cart line needs a product, a count of at least 1, a colour, and a price of at least 0. |
| CartSchema.ValidCart | src/models/cart/cartSchema.js:64-84 | A cart needs valid lines, a total of at least 0, a `totalAfterDiscount` of at least 0, an owner and a valid address. |
| CartSchema.NewCart | src/models/cart/cartSchema.js:66-83 | A new cart has its lines and address through the setters, and `totalAfterDiscount` at its default of 0. |
| CartRouter.Put | src/routers/cartRouter.js:120-124 | `findOneAndUpdate` on the owner's cart changes no other owner's cart and keeps the store invariant. |
| CartRouter.FormatItem | src/routers/cartRouter.js:31-37 | Each item keeps product, count, colour and price; a falsy title becomes absent; no size is sent. |
| CartRouter.FormatItems | src/routers/cartRouter.js:31-37 | There is one line per item, in order. No line has a size, and a line has a title exactly when its item's title is truthy. Product, count, colour and price are the item's. |
| CartRouter.RequestedCart | src/routers/cartRouter.js:43-49 | The new cart is owned by the requesting user and carries the request's address, or `{}`, through the setters. |
| CartRouter.SaveCart | src/routers/cartRouter.js:51 | `save()` succeeds iff the cart is valid, and then files it under its owner; the store invariant holds afterwards. |
| CartRouter.ReplaceCart | src/routers/cartRouter.js:39-51 | The old cart is deleted first, so a failed save leaves the owner with no cart; other owners are untouched. |
| CartRouter.CreateCart | src/routers/cartRouter.js:9-61 | Empty items are refused, then an unknown user; otherwise the owner's only cart is the requested one, or none if it was invalid. |
| CartRouter.GetCart | src/routers/cartRouter.js:64-90 | The owner's cart is returned with its total rounded to cents, or not found. |
| CartRouter.RequiredListComplete | src/routers/cartRouter.js:99-107 | The required list holds every address key update-address insists on, each at its own position. |
| CartRouter.RequiredListOrdered | src/routers/cartRouter.js:99-107 | The required list is in its declared order. |
| CartRouter.MissingFieldsMembers | src/routers/cartRouter.js:108 | A field is reported missing iff its value is falsy. |
| CartRouter.MissingFieldsOrdered | src/routers/cartRouter.js:108 | Missing fields are reported in the declared order. |
| CartRouter.NothingMissing | src/routers/cartRouter.js:108-117 | Nothing is reported iff all seven fields are present. |
| CartRouter.MissingFields | src/routers/cartRouter.js:108 | The report is the required fields whose values in the body are falsy, in declared order. |
| CartRouter.UpdateAddress | src/routers/cartRouter.js:93-140 | Missing fields are refused first, then a missing cart. Otherwise only the address changes, with no validator run. |
| CartRouter.DeleteCart | src/routers/cartRouter.js:143-163 | The owner's cart is removed and returned, or not found; other owners are untouched. |
| CartRouter.ClearCarts | src/routers/cartRouter.js:166-176 | After clear-all, every read and every delete finds no cart. |
| CartRouter.ApplyCoupon | src/routers/cartRouter.js:179-242 | The guards run in order: missing fields, unknown coupon, unknown user, no cart; the store is unchanged on each. Otherwise only `cartTotal` becomes the discounted total. |
| CartProperties.CreateStoresRequest | src/routers/cartRouter.js:31-49 | A created cart holds the formatted, trimmed items, the client's total, a zero `totalAfterDiscount`, the owner and the trimmed address. |
| CartProperties.CreateThenGet | src/routers/cartRouter.js:40-90 | Reading after a create returns the new cart with its total rounded. |
| CartProperties.CreateWithoutAddressLosesCart | src/routers/cartRouter.js:40-51 | Without an address the save fails and the owner's old cart is already gone. |
| CartProperties.NoAddressIsInvalid | src/routers/cartRouter.js:48 | The cart built with `address \|\| {}` fails the validators. |
| CartProperties.CartTotalIsClientSupplied | src/routers/cartRouter.js:45 | The total is never checked against the lines: any other non-negative total is stored just as well. |
| CartProperties.OnlyMissing | src/routers/cartRouter.js:108 | When one field is missing, it is the whole report. |
| CartProperties.UnitNumberRequiredOnlyHere | src/routers/cartRouter.js:99-117 | An address the schema accepts without `unitNumber` is refused, reporting `unitNumber` alone. |
| CartProperties.UpdateAddressSkipsValidators | src/routers/cartRouter.js:120-124 | A valid cart can be given a ZIP code that fails the pattern. |
| CartProperties.BlankFieldPassesGuard | src/routers/cartRouter.js:108-124 | A blank street passes the truthiness guard and is stored empty. |
| CartProperties.DeleteThenGet | src/routers/cartRouter.js:143-163 | After a delete, both reading and deleting again find no cart. |
| CartProperties.ApplyCouponKeepsTotalInRange | src/routers/cartRouter.js:221-231 | A coupon of at most 100 percent keeps the total between zero and its old value. |
| CartProperties.ApplyCouponTwiceCompounds | src/routers/cartRouter.js:221-231 | A second application discounts the discounted total, and `totalAfterDiscount` never changes. |
| CartProperties.ApplyCouponNotIdempotent | src/routers/cartRouter.js:221-231 | 10 percent twice on 100.00 gives 90.00 and then 81.00. |
| CartProperties.ApplyCouponCanBreakMinimum | src/routers/cartRouter.js:225-231 | A 150 percent coupon stores -5.00 on a cart of 10.00, which the schema forbids. |
| CouponSchema.NormaliseName | src/models/coupon/couponSchema.js:7-9 | A stored name is trimmed, has no lower-case letter, and is no longer than what was sent. |
| CouponSchema.NormaliseNameIdempotent | src/models/coupon/couponSchema.js:7-9 | Normalising a stored name leaves it as it is. |
| CouponSchema.NormaliseNameSetterOrder | src/models/coupon/couponSchema.js:7-9 | Either setter order gives the same name. |
| CouponSchema.SaveCoupon | src/models/coupon/couponSchema.js:5-21 | `save()` succeeds iff the length bounds hold, the expiry is present, and the name and id are free; names stay unique. |
| CouponSchema.AppendKeepsUnique | src/models/coupon/couponSchema.js:8 | Adding a coupon with a fresh name keeps names unique. |
| CouponSchema.AppendKeepsNormalised | src/models/coupon/couponSchema.js:7-9 | Adding a coupon with a normalised name keeps every name normalised. |
| CouponSchema.ValidCoupon | src/models/coupon/couponSchema.js:5-21 | After the setters, a name has 3 to 12 UTF-16 code units and an expiry is present. |
| CouponSchema.NameLengthInCodeUnits | src/models/coupon/couponSchema.js:11-12 | Two emoji (four code units) pass the name minimum of 3; seven emoji (fourteen units) fail the maximum of 12. |
| CouponSchema.FindByName | src/routers/cartRouter.js:191 | `Coupon.findOne({ name })` is the first coupon with exactly that name. |
| CouponRouter.CreateCoupon | src/routers/couponRouter.js:7-29 | A falsy name, expiry or discount, including a 0 discount, is refused with nothing stored. Otherwise the normalised coupon is appended iff it is valid and new. |
| CouponRouter.CreateKeepsInvariants | src/models/coupon/couponSchema.js:7-9 | Create keeps names unique and normalised. |
| CouponRouter.DeleteCoupon | src/routers/couponRouter.js:32-53 | Delete removes the first coupon with the id and keeps the others in their order, or reports not found with the store unchanged. |
| CouponRouter.RemoveKeepsUniqueNames | src/routers/couponRouter.js:36 | Deleting a coupon keeps names unique. |
| CouponRouter.ListCoupons | src/routers/couponRouter.js:56-67 | The listing is every coupon, newest first. |
| OrderSchema.NewOrder | src/models/orders/orderSchema.js:34-44 | A new order starts as "Not Processed", a member of the status enum, with the given lines, payment intent and owner. |
| OrderSchema.CartLineIsOrderLine | src/models/orders/orderSchema.js:5-30 | Every valid cart line is a valid order line. |
| OrderSchema.OrderLineIsLooser | src/models/orders/orderSchema.js:11-22 | Some order line is not a valid cart line, since order lines declare no bounds. |
| OrderSchema.CartLinesMakeValidOrder | src/models/orders/orderSchema.js:3-50 | Valid cart lines with an owner always make a valid order. |
| OrderSchema.ValidOrderLine | src/models/orders/orderSchema.js:5-30 | An order line requires count, colour and price and bounds none of them. |
| OrderSchema.ValidOrder | src/models/orders/orderSchema.js:3-50 | An order needs valid lines, a status from the five-value enum, and an owner. |
| OrderRouter.CreateOrder | src/routers/orderRouter.js:8-47 | An unknown user, then a missing cart, leave everything unchanged. Otherwise the cart is deleted and one order is added with its lines; a failed save loses the cart without an order. |
| OrderRouter.CreateOrderTwice | src/routers/orderRouter.js:22-28 | A second order for the same user finds no cart. |
| OrderRouter.StoredCartBecomesOrder | src/routers/orderRouter.js:31-37 | A stored cart, a fresh id and a working database always give an order. |
| OrderRouter.CreateOrderAddsOne | src/routers/orderRouter.js:31-40 | A successful call adds exactly one order. |
| CartSlice.AddToCart | src/utils/Untitled-1.js:9-18 | An existing `_id` gets the payload's colour and count at its first position; a new one is appended. `_id`s stay unique. |
| CartSlice.UpdateColor | src/utils/Untitled-1.js:19-26 | Only the first match's colour changes; with no match nothing changes. |
| CartSlice.UpdateCount | src/utils/Untitled-1.js:27-34 | Only the first match's count changes; with no match nothing changes. |
| CartSlice.AddToCartIdempotent | src/utils/Untitled-1.js:9-16 | Adding the same payload twice is adding it once. |
| CartSlice.AddExistingIsTwoUpdates | src/utils/Untitled-1.js:9-34 | For an existing item, adding is a colour update followed by a count update. |
| CartSlice.AddThenFind | src/utils/Untitled-1.js:9-16 | After adding, the item found by `_id` has the payload's colour and count. |
| ReviewSchema.NewReview | src/models/reviews/ReviewSchema.js:3-38 | A new review carries the body's ids, or empty ones that `required` refuses. Its status is the body's or "active", and a missing rating is below the minimum. |
| ReviewSchema.NewReviewRequiredFields | src/models/reviews/ReviewSchema.js:5-33 | A body without userId, productId, title, rating or description never makes a valid review. |
| ReviewSchema.ValidReview | src/models/reviews/ReviewSchema.js:3-39 | userId, productId, title and description are required, the rating is 1 to 5, and the status is "active" or "inactive". |
| ReviewRouter.Apply | src/routers/reviewRouter.js:54-59 | An update never changes id, author or product. Each of status, title, rating and description takes the value sent, or keeps its old value when the key is absent. |
| ReviewRouter.ApplyIdempotent | src/routers/reviewRouter.js:54-59 | Applying the same changes twice is applying them once. |
| ReviewRouter.ApplyBodyToNewReview | src/routers/reviewRouter.js:23-34 | A review built from a body already holds what that body would set. |
| ReviewRouter.UpdateById | src/routers/reviewRouter.js:54-66 | The review with the id is changed in place, or not found with nothing changed; ids and pairs stay unique. |
| ReviewRouter.Upsert | src/routers/reviewRouter.js:14-48 | The first review the `{ userId, productId }` filter matches is updated, unvalidated; an absent id is dropped from the filter. Otherwise a new review is appended iff it is valid and its id is free. A body without either id never inserts, and no second review is created for a pair. |
| ReviewRouter.Patch | src/routers/reviewRouter.js:51-80 | Only status, title, rating and description of the first review the `_id` filter matches change, or it is not found. With an `_id` this is the update by id; without one, the first review in the collection is rewritten. |
| ReviewRouter.RemoveKeepsUnique | src/routers/reviewRouter.js:86 | Removing a review keeps ids and pairs unique. |
| ReviewRouter.DeleteReview | src/routers/reviewRouter.js:83-106 | Delete removes the first review with the id and keeps the others in their order, or reports not found with the store unchanged. |
| ReviewRouter.FindReviews | src/routers/reviewRouter.js:111-128 | The empty filter returns every review; a status filter keeps exactly the reviews with that status. |
| ReviewRouter.ListAll | src/routers/reviewRouter.js:109-123 | The admin listing holds every review. |
| ReviewRouter.ListActive | src/routers/reviewRouter.js:126-140 | The public listing holds exactly the active reviews. |
| ReviewRouter.ListActiveCounts | src/routers/reviewRouter.js:128 | Each active review appears as often as it is stored, and no other review appears. |
| ReviewRouter.ForProduct | src/routers/reviewRouter.js:143-161 | The product's reviews, and only those, ordered by non-increasing rating. |
| ReviewRouter.ForProductContentsAndStability | src/routers/reviewRouter.js:147-148 | Each of the product's reviews appears as often as stored, and equal ratings keep the query's order. |
| ReviewRouter.MissingLookupHidesReviews | src/routers/reviewRouter.js:8 | As written, the per-product route lists nothing even for a product with reviews; the intended listing returns every one of them. |
| ReviewProperties.UpsertThenFind | src/routers/reviewRouter.js:19-40 | After add-or-update, looking the pair up finds the returned review. |
| ReviewProperties.UpsertIdempotent | src/routers/reviewRouter.js:19-40 | Sending the same body twice gives the same store and review as sending it once. |
| ReviewProperties.UpsertExistingKeepsCount | src/routers/reviewRouter.js:21-31 | A body for an existing pair never adds a review, and the pair keeps a single review. |
| ReviewProperties.UpsertSkipsValidators | src/routers/reviewRouter.js:23-26 | Add-or-update stores a rating of 10 on an existing review. |
| ReviewProperties.PatchSkipsValidators | src/routers/reviewRouter.js:54-59 | PATCH stores a status outside the enum. |
| ReviewProperties.PatchHidesFromPublic | src/routers/reviewRouter.js:51-140 | Patching a review to a non-active status removes it from the public listing, and the admin listing keeps it. |
| ReviewProperties.DeleteThenPatch | src/routers/reviewRouter.js:83-93 | A deleted review can be neither patched nor deleted again. |
| ReviewProperties.InsertIsValidated | src/routers/reviewRouter.js:32-40 | A new review is saved only with both ids, a title, a rating from 1 to 5, and a description. |
| ReviewProperties.UpsertWithoutIdsUpdatesFirst | src/routers/reviewRouter.js:16-31 | A body without either id overwrites the first review in the collection with its fields. |
| ReviewProperties.UpsertWithoutUserOverwritesAnyAuthor | src/routers/reviewRouter.js:16-31 | A body that names a product but no user overwrites that product's first review, whoever wrote it. |
| ReviewProperties.PatchWithoutIdUpdatesFirst | src/routers/reviewRouter.js:51-59 | A PATCH body without `_id` rewrites the first review in the collection. |

## Left out

- Express plumbing is not modelled: `req`/`res`, HTTP status codes, `populate`, `exec`, and the `next(error)` paths. Each handler returns an error variant instead of a status code.
- A handler that throws is modelled only where the code reaches the throw by a validator or a unique index. ObjectId cast errors on malformed ids are taken to be "not found".
- JavaScript floating point is not modelled: money is an exact `real`, and `toFixed(2)` is exact rounding to cents.
- The response of update-address lists the missing fields joined by ", "; the model returns the list itself.
- Stripe, e-mail, image upload, OAuth, the database connection and the server wiring are not modelled. They are foreign calls or configuration.
- bcrypt, JWT, uuid and one-time-code generation are parameters: `hash`, `matches`, and the tokens and codes of the stored sessions.
- `src/models/session/SessionModel.js` is not part of this model. `deleteSession(filter)` is taken to remove and return the first session its filter matches.
- UserRouter.VerifyEmail: the session that verification deletes stays in the session collection, which the route takes as input and does not return. The same holds for UserRouter.ResetPassword. A second use of one link or code is therefore not modelled.
- ReviewRouter.Patch: an absent `_id` is read as the filter `{ _id: undefined }`, which matches every review. This rests on `findByIdAndUpdate` passing the id through unchanged, unlike `findById`; if Mongoose mapped it to `null` instead, such a PATCH would find nothing.
- UserRouter.Login: the password is always present. A body without one hands `undefined` to the bcrypt comparison, which the `matches` parameter stands for.
- Creating sessions, sending e-mail and issuing tokens at login are left out. The model's login reply carries only the email.
- Registration can fail after the insert, when the verification session cannot be stored. The model treats session storage as always working.
- GET `/new-accessjwt`, GET `/all`, DELETE `/logout`, POST `/otp`, GET `/:id` and DELETE `/:id` of the user routes are left out. They look records up or delete them and make no decision the model covers.
- The user fields `googleId`, `phone` and `image` are left out. No modelled decision reads them.
- Category, sub-category and product routes and models are left out. They are thin CRUD over Mongoose and a slug library.
- The `localStorage` sync of the client cart reducer is left out, since it is I/O.
- The coupon's `expiry` is kept as the string sent. Casting it to a `Date` is not modelled.
- The `createdAt`/`updatedAt` timestamps of carts, orders and reviews are left out. Only the coupon listing reads one.
- Numeric fields are always present numbers. A non-numeric count, price or rating, which Mongoose would refuse as a cast error, is not modelled.
- Non-ASCII white space other than the no-break space and the byte-order mark, and non-ASCII upper-casing, are not modelled by the setters.
- Concurrency is not modelled: each handler is one atomic step. This includes a race between the cart delete and the order save.
- The carts collection is a map from owner to cart. The schema only indexes `orderedBy`, but every writing route deletes the owner's cart before saving a new one.
- `reviewRouter.js` imports `getReviewsByProductId`, which `src/models/reviews/ReviewModal.js` does not export. The per-product listing is modelled as `Review.find({ productId })`, which the route evidently means.
- ReviewRouter.Upsert: the review `userId` and `productId` are ObjectIds in the schema; the model treats them as opaque strings. A present id that fails the ObjectId cast makes the lookup throw, and the route answers 500 with nothing stored. The model does not model that: it looks such an id up like any other. An absent id is modelled; it is dropped from the filter.
- CartRouter.GetCart: the total is rendered by `toFixed(2)` as a string in the response; the model returns the rounded number.
- CartRouter.ApplyCoupon: the reply's separate `totalAfterDiscount` field, which is the same rounded value, is not returned.
- ReviewSchema.NewReview: the author's `userName` is dropped, because the schema does not declare it.
- ReviewSchema.ValidReview: ratings are whole numbers, although the schema's `Number` also accepts a rating such as 4.5. The 1-to-5 bounds are the same.
- ReviewRouter.ForProduct: ratings are whole numbers, so the sort is not modelled on fractional ratings.
- CartSchema.ValidLine: counts are whole numbers, although the schema's `Number` also accepts a count such as 1.5. The minimum of 1 is the same.
- Order creation is modelled as written, but `src/routers/routers.js` mounts no order router, so the server as wired never reaches it.

## Findings

| source | as written | input that shows it | evidently intended | confidence | as-written member | corrected member |
|---|---|---|---|---|---|---|
| src/routers/userRouter.js:120-126 | The verification update sets a key spelled `staus`. The schema drops the key, so the account stays "inactive". | Register with the default status, verify with a valid link, then log in with the right password: the reply is "Your account is not active, contact admin". | Verification sets `status: "active"` together with `isEmailVerified: true`. | high; not executed | UserRouter.VerifyEmail, AccountLifecycle.VerifiedAccountStaysLockedOut | UserRouter.VerifyEmailCorrected, AccountLifecycle.VerifiedAccountCanLogIn |
| src/routers/userRouter.js:323 | The guard `(email, otp, password)` is a comma expression, so it tests only `password`. | `{ password: "new-secret" }` passes the guard. Sent while any reset code is pending, it consumes that code and sets the password of the first user in the collection. `{ email: victim, password: "x" }` consumes the victim's pending code, whatever it is, and sets the victim's password. | All three fields are required. | high; not executed | UserRouter.ResetPassword, AccountLifecycle.ResetGuardIgnoresEmailAndOtp, AccountLifecycle.ResetWithoutCodeTakesOver, AccountLifecycle.ResetWithoutEmailRewritesFirstUser | UserRouter.ResetPasswordCorrected, UserRouter.ResetGuardCorrected |
| src/routers/userRouter.js:71 | The whole request body is passed to the user constructor. A caller can set `status`, `role`, `isEmailVerified` and `refreshJWT`. | A body with `status: "active"`, `role: "admin"`, `isEmailVerified: true` registers an admin who can log in at once. | New accounts take the schema defaults: inactive, "user", unverified, with an empty refresh token. | medium; not executed | UserRouter.Register, AccountLifecycle.MassAssignmentLogsIn | UserRouter.RegisterCorrected, AccountLifecycle.CorrectedRegistrationCannotLogIn |
| src/routers/reviewRouter.js:8 | The route imports `getReviewsByProductId`, which `src/models/reviews/ReviewModal.js` does not export. As a native module the import is a link error and the router does not load; transpiled, the call at line 147 throws and the route answers 500. | `GET /product/p1` with reviews of `p1` stored: no review is listed. | The lookup is `Review.find({ productId })`, sorted by rating. | high that the export is missing; which of the two failures occurs depends on the module system; not executed | ReviewRouter.ForProductAsWritten, ReviewRouter.MissingLookupHidesReviews | ReviewRouter.ForProduct |

=== FILE: account_lifecycle.dfy ===
/** What a new account can do: registration, then e-mail verification, then login, both as
    the routes are written and with the three evident fixes. */
module AccountLifecycle {
  import opened Results
  import opened Collections
  import opened UserSchema
  import opened SessionStore
  import opened UserRouter

  /** After a successful registration the new user is the one found by its email. */
  lemma RegisteredIsFound(users: seq<User>, fields: UserFields, gender: string, id: UserId,
                          hash: string -> string)
    requires RegisterFields(users, fields, gender, id, hash).result.Ok?
    ensures var r := RegisterFields(users, fields, gender, id, hash);
      FindByEmail(r.state, fields.email) == Some(r.result.value)
  {
    var r := RegisterFields(users, fields, gender, id, hash);
    var u := r.result.value;
    assert u in r.state by { assert r.state[|users|] == u; }
    FindByEmailOnly(r.state, u);
  }

  /** After a successful verification of the last-registered user, that user, as
      verified, is the one found by its email. */
  lemma VerifiedIsFound(prefix: seq<User>, u: User, r: Reply<seq<User>, User, LinkError>)
    requires forall v :: v in prefix ==> v.email != u.email
    requires r.result.Ok? && r.result.value.email == u.email && r.result.value in r.state
    requires |r.state| == |prefix + [u]|
    requires forall k :: 0 <= k < |prefix + [u]| && (prefix + [u])[k].email != u.email ==>
               r.state[k] == (prefix + [u])[k]
    ensures r.state == prefix + [r.result.value]
    ensures FindByEmail(r.state, u.email) == Some(r.result.value)
  {
    var w := r.result.value;
    forall k | 0 <= k < |prefix|
      ensures r.state[k] == prefix[k]
    {
      assert (prefix + [u])[k] == prefix[k];
    }
    var j :| 0 <= j < |r.state| && r.state[j] == w;
    if j < |prefix| {
      assert false;
    }
    assert r.state == prefix + [w];
    FindByEmailOnly(r.state, w);
  }

  /** As written, a registration whose body leaves `isEmailVerified` out (or false) yields
      an account that cannot sign in, whatever password is tried. */
  lemma DefaultRegistrationCannotLogIn(users: seq<User>, body: RegisterBody, id: UserId,
                                       hash: string -> string, password: string,
                                       matches: (string, string) -> bool)
    requires body.fields.isEmailVerified != Some(true)
    requires Register(users, body, id, hash).result.Ok?
    ensures Login(Register(users, body, id, hash).state, Some(body.fields.email), password, matches).LoginFailed?
  {
    RegisteredIsFound(users, body.fields, body.gender, id, hash);
  }

  /** Finding, as written: the body reaches the document unfiltered, so a caller can
      register an active, verified admin who signs in at once. */
  lemma MassAssignmentLogsIn()
    ensures
      var body := RegisterBody(UserFields("Ann", "Lee", "ann@example.com", "secret",
                                          Some("active"), Some("admin"), Some(true), None), "female");
      var r := Register([], body, "u1", (s: string) => "#" + s);
      && r.result.Ok? && r.result.value.role == "admin"
      && Login(r.state, Some("ann@example.com"), "secret", (p: string, h: string) => h == "#" + p).LoggedIn?
  {
    var hash := (s: string) => "#" + s;
    var body := RegisterBody(UserFields("Ann", "Lee", "ann@example.com", "secret",
                                        Some("active"), Some("admin"), Some(true), None), "female");
    assert body.gender in ValidGenders;
    RegisteredIsFound([], body.fields, body.gender, "u1", hash);
  }

  /** Corrected: every account that registration creates starts unable to sign in, and is
      told to verify its email. */
  lemma CorrectedRegistrationCannotLogIn(users: seq<User>, body: RegisterBody, id: UserId,
                                         hash: string -> string, password: string,
                                         matches: (string, string) -> bool)
    requires RegisterCorrected(users, body, id, hash).result.Ok?
    ensures Login(RegisterCorrected(users, body, id, hash).state, Some(body.fields.email), password, matches)
            == LoginFailed(NotVerifiedMessage)
  {
    var fields := body.fields.(status := None, role := None, isEmailVerified := None, refreshJWT := None);
    RegisteredIsFound(users, fields, body.gender, id, hash);
  }

  /** Finding, as written: verification does not activate the account, so a user who
      registered with the default status and then followed the mailed link (the session
      `token` that registration issued) is still refused, with the not-active message, even
      with the right password. */
  lemma VerifiedAccountStaysLockedOut(users: seq<User>, sessions: seq<Session>, body: RegisterBody,
                                      id: UserId, token: string, hash: string -> string,
                                      password: string, matches: (string, string) -> bool)
    requires body.fields.status.None?
    requires Register(users, body, id, hash).result.Ok?
    ensures
      var r := Register(users, body, id, hash);
      var email := Some(body.fields.email);
      var v := VerifyEmail(r.state, sessions + [Session(token, body.fields.email, None)], Some(token), email);
      v.result.Ok? && Login(v.state, email, password, matches) == LoginFailed(NotActiveMessage)
  {
    var r := Register(users, body, id, hash);
    var u := r.result.value;
    RegisteredIsFound(users, body.fields, body.gender, id, hash);
    IssuedLinkMatches(sessions, token, body.fields.email);
    var v := VerifyEmail(r.state, sessions + [Session(token, body.fields.email, None)], Some(token),
                         Some(body.fields.email));
    VerifiedIsFound(users, u, v);
  }

  /** Corrected: after registration and verification through the mailed link the account
      signs in exactly when the password matches the stored hash. */
  lemma VerifiedAccountCanLogIn(users: seq<User>, sessions: seq<Session>, body: RegisterBody,
                                id: UserId, token: string, hash: string -> string,
                                password: string, matches: (string, string) -> bool)
    requires RegisterCorrected(users, body, id, hash).result.Ok?
    ensures
      var r := RegisterCorrected(users, body, id, hash);
      var email := Some(body.fields.email);
      var v := VerifyEmailCorrected(r.state, sessions + [Session(token, body.fields.email, None)],
                                    Some(token), email);
      && v.result.Ok?
      && (Login(v.state, email, password, matches).LoggedIn?
          <==> matches(password, hash(body.fields.password)))
  {
    var r := RegisterCorrected(users, body, id, hash);
    var u := r.result.value;
    var fields := body.fields.(status := None, role := None, isEmailVerified := None, refreshJWT := None);
    RegisteredIsFound(users, fields, body.gender, id, hash);
    IssuedLinkMatches(sessions, token, body.fields.email);
    var v := VerifyEmailCorrected(r.state, sessions + [Session(token, body.fields.email, None)],
                                  Some(token), Some(body.fields.email));
    VerifiedIsFound(users, u, v);
  }

  /** The link registration mails names the session it issued, so verification finds a
      session to consume. */
  lemma IssuedLinkMatches(sessions: seq<Session>, token: string, email: string)
    ensures FindFirst(sessions + [Session(token, email, None)],
                      VerificationQuery(Some(token), Some(email))).Some?
  {
    var x := Session(token, email, None);
    assert x in sessions + [x] && VerificationQuery(Some(token), Some(email))(x);
  }

  /** Finding, as written: the reset guard lets a request with neither email nor one-time
      code through; the intended guard refuses it. */
  lemma ResetGuardIgnoresEmailAndOtp(email: Option<string>, otp: Option<string>, password: Option<string>)
    ensures ResetGuard(email, otp, password) <==> Truthy(password)
    ensures ResetGuard(None, None, Some("new-secret")) && !ResetGuardCorrected(None, None, Some("new-secret"))
  {
  }

  /** Finding, as written: a reset body with the victim's email and a new password but no
      code consumes whatever code is pending for that email and rewrites the victim's
      password; the intended guard refuses the request. */
  lemma ResetWithoutCodeTakesOver(users: seq<User>, sessions: seq<Session>, victim: string,
                                  pending: string, password: Option<string>, hash: string -> string)
    requires Session(pending, victim, Some("otp")) in sessions
    requires FindByEmail(users, victim).Some?
    requires Truthy(password)
    ensures var r := ResetPassword(users, sessions, Some(victim), None, password, hash);
      && r.result.Ok?
      && r.result.value == FindByEmail(users, victim).value.(password := hash(password.value))
      && r.state == users[FirstIndex(users, HasEmail(victim)).value := r.result.value]
    ensures ResetPasswordCorrected(users, sessions, Some(victim), None, password, hash).result.Err?
  {
    CodeOmittedMatchesPending(sessions, pending, victim);
  }

  /** Finding, as written: a reset body with only a new password, sent while any reset
      code is pending, consumes that code and rewrites the password of the first user in
      the collection; the intended guard refuses it. */
  lemma ResetWithoutEmailRewritesFirstUser(users: seq<User>, sessions: seq<Session>, code: string,
                                           owner: string, password: Option<string>,
                                           hash: string -> string)
    requires |users| > 0
    requires Session(code, owner, Some("otp")) in sessions
    requires Truthy(password)
    ensures var r := ResetPassword(users, sessions, None, None, password, hash);
      && r.result.Ok?
      && r.result.value == users[0].(password := hash(password.value))
      && r.state == users[0 := r.result.value]
    ensures ResetPasswordCorrected(users, sessions, None, None, password, hash).result.Err?
  {
    assert ResetQuery(None, None)(Session(code, owner, Some("otp")));
    EmailKeyLookup(users, None);
  }

  /** As written, an empty verification body consumes any stored session and verifies the
      first user in the collection. */
  lemma VerifyWithEmptyBodyVerifiesFirstUser(users: seq<User>, sessions: seq<Session>)
    requires |users| > 0 && |sessions| > 0
    ensures VerifyEmail(users, sessions, None, None)
            == Reply(users[0 := users[0].(isEmailVerified := true)], Ok(users[0].(isEmailVerified := true)))
  {
    EmptyQueryMatchesAny(sessions);
    EmailKeyLookup(users, None);
  }

  /** As written, a login body without an email checks the password against the first user
      in the collection, whose state also picks the failure message. */
  lemma LoginWithoutEmailChecksFirstUser(users: seq<User>, password: string,
                                         matches: (string, string) -> bool)
    requires |users| > 0
    ensures var r := Login(users, None, password, matches);
      && (r.LoggedIn? <==> MayLogIn(users[0], password, matches))
      && (r.LoginFailed? && users[0].isEmailVerified && users[0].status == "inactive" ==>
            r.message == NotActiveMessage)
  {
    EmailKeyLookup(users, None);
  }

  /** The role and status updates rewrite one user in place and never its email or `_id`,
      so both unique indexes survive them. */
  lemma AdminUpdatesKeepIndexes(users: seq<User>, id: UserId, role: string, status: string)
    ensures UniqueEmails(users) ==>
      UniqueEmails(UpdateRole(users, id, role).state) && UniqueEmails(UpdateStatus(users, id, status).state)
    ensures UniqueIds(users) ==>
      UniqueIds(UpdateRole(users, id, role).state) && UniqueIds(UpdateStatus(users, id, status).state)
  {
    var rr := UpdateRole(users, id, role);
    var rs := UpdateStatus(users, id, status);
    if rr.result.Ok? {
      ReplaceKeepsIndexes(users, FirstIndex(users, HasUserId(id)).value, rr.result.value);
    }
    if rs.result.Ok? {
      ReplaceKeepsIndexes(users, FirstIndex(users, HasUserId(id)).value, rs.result.value);
    }
  }

  /** A password reset rewrites only the hash of one user, so both unique indexes survive it. */
  lemma ResetKeepsIndexes(users: seq<User>, sessions: seq<Session>, email: Option<string>,
                          otp: Option<string>, password: Option<string>, hash: string -> string)
    ensures var r := ResetPassword(users, sessions, email, otp, password, hash);
      (UniqueEmails(users) ==> UniqueEmails(r.state)) && (UniqueIds(users) ==> UniqueIds(r.state))
  {
    var r := ResetPassword(users, sessions, email, otp, password, hash);
    if r.result.Ok? {
      ReplaceKeepsIndexes(users, FirstIndex(users, EmailKey(email)).value, r.result.value);
    }
  }

  /** After an administrator sets a user's status, that user signs in exactly when the new
      status is "active", the email is verified and the password matches. */
  lemma StatusUpdateDecidesLogin(users: seq<User>, id: UserId, status: string, password: string,
                                 matches: (string, string) -> bool)
    requires UniqueEmails(users)
    requires status == "active" || status == "inactive"
    requires FindById(users, id).Some?
    ensures var u := FindById(users, id).value;
      var r := UpdateStatus(users, id, status);
      && r.result.Ok?
      && (Login(r.state, Some(u.email), password, matches).LoggedIn? <==>
            status == "active" && u.isEmailVerified && matches(password, u.password))
  {
    var r := UpdateStatus(users, id, status);
    var i := FirstIndex(users, HasUserId(id)).value;
    ReplaceKeepsIndexes(users, i, r.result.value);
    assert r.state[i] == r.result.value;
    FindByEmailUnique(r.state, r.result.value);
  }

  /** After a reset, the user it rewrote signs in with the same email key and the new
      password exactly when the account is active and verified and the new password
      matches its own hash. */
  lemma ResetThenLogIn(users: seq<User>, sessions: seq<Session>, email: Option<string>,
                       otp: Option<string>, password: Option<string>, hash: string -> string,
                       matches: (string, string) -> bool)
    requires UniqueEmails(users)
    requires ResetPassword(users, sessions, email, otp, password, hash).result.Ok?
    ensures var u := FindByEmailKey(users, email).value;
      var r := ResetPassword(users, sessions, email, otp, password, hash);
      Login(r.state, email, password.value, matches).LoggedIn? <==>
        u.status == "active" && u.isEmailVerified && matches(password.value, hash(password.value))
  {
    var r := ResetPassword(users, sessions, email, otp, password, hash);
    var i := FirstIndex(users, EmailKey(email)).value;
    ReplaceKeepsIndexes(users, i, r.result.value);
    assert r.state[i] == r.result.value;
    EmailKeyLookup(users, email);
    EmailKeyLookup(r.state, email);
    if email.Some? {
      FindByEmailUnique(r.state, r.result.value);
    }
  }
}

=== FILE: cart_properties.dfy ===
/** Properties of the cart store that relate several calls, or that show where the
    handlers and the cart schema part ways. */
module CartProperties {
  import opened Results
  import opened Text
  import opened Money
  import opened Collections
  import opened UserSchema
  import opened CartSchema
  import opened CouponSchema
  import opened CartRouter

  /** A successful create stores what the request sent: each item as a line with the
      `trim` setters applied, the client's `total` as `cartTotal`, the default
      `totalAfterDiscount`, the owner, and the trimmed address. */
  lemma CreateStoresRequest(carts: Carts, users: seq<User>, req: CreateRequest)
    requires CreateCart(carts, users, req).result.Ok?
    ensures var c := CreateCart(carts, users, req).result.value;
      && |c.products| == |req.items.value|
      && (forall i :: 0 <= i < |c.products| ==> c.products[i] == TrimLine(FormatItem(req.items.value[i])))
      && c.cartTotal == req.total.value
      && c.totalAfterDiscount == 0.0
      && c.orderedBy == req.userId
      && c.address == TrimAddress(req.address.GetOr(EmptyAddress))
  {
  }

  /** After a successful create the owner's cart, read back, is the new cart. */
  lemma CreateThenGet(carts: Carts, users: seq<User>, req: CreateRequest)
    requires CreateCart(carts, users, req).result.Ok?
    ensures var r := CreateCart(carts, users, req);
      GetCart(r.state, req.userId) == Ok(r.result.value.(cartTotal := RoundCents(r.result.value.cartTotal)))
  {
  }

  /** `address || {}` gives a cart with no address fields, which the address validators
      refuse at `save()`; by then the owner's old cart has already been deleted. */
  lemma CreateWithoutAddressLosesCart(carts: Carts, users: seq<User>, req: CreateRequest)
    requires req.items.Some? && req.items.value != [] && FindById(users, req.userId).Some?
    requires req.address.None?
    ensures var r := CreateCart(carts, users, req);
      && r.result == Err(InvalidCart)
      && req.userId !in r.state
      && Untouched(carts, r.state, req.userId)
  {
    if req.total.Some? {
      NoAddressIsInvalid(req);
    }
  }

  /** The cart built from a request without an address fails the address validators. */
  lemma NoAddressIsInvalid(req: CreateRequest)
    requires req.items.Some? && req.total.Some? && req.address.None?
    ensures !ValidCart(RequestedCart(req, req.userId))
  {
    BlankStreetIsInvalid(EmptyAddress);
  }

  /** The stored `cartTotal` is the client's `total` and is never checked against the
      lines: if a request succeeds, the same request with any other non-negative total also
      succeeds, storing the same lines under that total. */
  lemma CartTotalIsClientSupplied(carts: Carts, users: seq<User>, req: CreateRequest, total: real)
    requires CreateCart(carts, users, req).result.Ok?
    requires total >= 0.0
    ensures var r := CreateCart(carts, users, req.(total := Some(total)));
      && r.result.Ok?
      && r.result.value.cartTotal == total
      && r.result.value.products == CreateCart(carts, users, req).result.value.products
  {
    var other := req.(total := Some(total));
    assert RequestedCart(other, other.userId) == RequestedCart(req, req.userId).(cartTotal := total);
  }

  /** When exactly one required field is falsy, it is the whole report. */
  lemma OnlyMissing(a: Address, f: AddressField)
    requires FieldValue(a, f) == ""
    requires forall g :: g != f ==> FieldValue(a, g) != ""
    ensures MissingFields(a) == [f]
  {
    MissingFieldsMembers(a);
    MissingFieldsOrdered(a);
    var r := MissingFields(a);
    assert forall i :: 0 <= i < |r| ==> r[i] == f by {
      forall i | 0 <= i < |r| ensures r[i] == f {
        assert r[i] in r;
      }
    }
    OrderedSingleton(r, f, FieldBefore);
  }

  /** `unitNumber` is optional in the schema but required by update-address: an address
      the schema accepts without one is refused, and `unitNumber` is the one field
      reported. */
  lemma UnitNumberRequiredOnlyHere(carts: Carts, userId: UserId, a: Address)
    requires ValidAddress(a) && a.unitNumber == ""
    ensures UpdateAddress(carts, userId, a) == Reply(carts, Err(AddressIncomplete([UnitNumber])))
  {
    OnlyMissing(a, UnitNumber);
  }

  /** Update-address writes through `findOneAndUpdate`, so no validator runs: a valid cart
      is given any address whose seven required fields are present, even one whose ZIP code
      does not match the pattern. */
  lemma UpdateAddressSkipsValidators(carts: Carts, userId: UserId, body: Address)
    requires userId in carts && ValidCart(carts[userId])
    requires && body.unitNumber != "" && body.street != "" && body.city != "" && body.state != ""
             && body.zipCode != "" && body.country != "" && body.phoneNumber != ""
    requires !IsZipCode(Trim(body.zipCode))
    ensures var r := UpdateAddress(carts, userId, body);
      && r.result.Ok?
      && r.state[userId] == r.result.value
      && !ValidCart(r.result.value)
  {
    NothingMissing(body);
  }

  /** The guard tests truthiness before the setters run: a street of blanks passes it and
      is stored as the empty string the schema would refuse. */
  lemma BlankFieldPassesGuard(carts: Carts, userId: UserId, body: Address)
    requires userId in carts
    requires && body.unitNumber != "" && body.street != "" && body.city != "" && body.state != ""
             && body.zipCode != "" && body.country != "" && body.phoneNumber != ""
    requires AllSpace(body.street)
    ensures var r := UpdateAddress(carts, userId, body);
      && r.result.Ok?
      && r.result.value.address.street == ""
      && !ValidAddress(r.result.value.address)
  {
    NothingMissing(body);
    assert |TrimStart(body.street)| == 0;
  }

  /** Delete removes the cart for good: reading it or deleting it again finds nothing. */
  lemma DeleteThenGet(carts: Carts, userId: UserId)
    ensures var s := DeleteCart(carts, userId).state;
      GetCart(s, userId) == Err(CartNotFound) && DeleteCart(s, userId) == Reply(s, Err(CartNotFound))
  {
  }

  /** For a coupon of at most 100 percent, a whole-cent, non-negative total stays between
      zero and its old value. */
  lemma ApplyCouponKeepsTotalInRange(carts: Carts, users: seq<User>, coupons: seq<Coupon>,
                                      coupon: string, userId: UserId)
    requires ApplyCoupon(carts, users, coupons, coupon, userId).result.Ok?
    requires carts[userId].cartTotal >= 0.0 && IsCents(carts[userId].cartTotal)
    requires 0.0 <= FindByName(coupons, NormaliseName(coupon)).value.discount <= 100.0
    ensures var t := ApplyCoupon(carts, users, coupons, coupon, userId).result.value.cartTotal;
      0.0 <= t <= carts[userId].cartTotal
  {
    DiscountBounds(carts[userId].cartTotal, FindByName(coupons, NormaliseName(coupon)).value.discount);
  }

  /** Applying a coupon overwrites `cartTotal` and leaves `totalAfterDiscount` alone, so a
      second application discounts the already discounted total again. */
  lemma ApplyCouponTwiceCompounds(carts: Carts, users: seq<User>, coupons: seq<Coupon>,
                                  coupon: string, userId: UserId)
    requires ApplyCoupon(carts, users, coupons, coupon, userId).result.Ok?
    ensures var d := FindByName(coupons, NormaliseName(coupon)).value.discount;
      var once := ApplyCoupon(carts, users, coupons, coupon, userId);
      var twice := ApplyCoupon(once.state, users, coupons, coupon, userId);
      && twice.result.Ok?
      && twice.result.value.cartTotal == Discount(Discount(carts[userId].cartTotal, d), d)
      && twice.result.value.totalAfterDiscount == carts[userId].totalAfterDiscount
  {
  }

  /** So the operation is not idempotent: a 10% coupon applied twice to a total of 100.00
      gives 90.00 and then 81.00. */
  lemma ApplyCouponNotIdempotent(carts: Carts, users: seq<User>, coupons: seq<Coupon>,
                                 coupon: string, userId: UserId)
    requires ApplyCoupon(carts, users, coupons, coupon, userId).result.Ok?
    requires carts[userId].cartTotal == 100.0
    requires FindByName(coupons, NormaliseName(coupon)).value.discount == 10.0
    ensures var once := ApplyCoupon(carts, users, coupons, coupon, userId);
      var twice := ApplyCoupon(once.state, users, coupons, coupon, userId);
      once.result.value.cartTotal == 90.0 && twice.result.value.cartTotal == 81.0
  {
    ApplyCouponTwiceCompounds(carts, users, coupons, coupon, userId);
    DiscountCompounds();
  }

  /** The coupon's discount has no declared range and the update runs no validator, so a
      150% coupon on a valid cart of 10.00 stores a total of -5.00, which the cart schema
      forbids. */
  lemma ApplyCouponCanBreakMinimum(carts: Carts, users: seq<User>, coupons: seq<Coupon>,
                                   coupon: string, userId: UserId)
    requires ApplyCoupon(carts, users, coupons, coupon, userId).result.Ok?
    requires carts[userId].cartTotal == 10.0
    requires FindByName(coupons, NormaliseName(coupon)).value.discount == 150.0
    ensures var r := ApplyCoupon(carts, users, coupons, coupon, userId);
      r.state[userId].cartTotal == -5.0 && !ValidCart(r.state[userId])
  {
    DiscountOverHundredGoesNegative();
  }
}

=== FILE: cart_router.dfy ===
/** The server-side cart store: one cart per owner, written by create, address update,
    delete, clear-all and coupon application. Each handler is a transition on a map from
    owner id to cart that returns the new map and a success or error variant. */
module CartRouter {
  import opened Results
  import opened Text
  import opened Money
  import opened Collections
  import opened UserSchema
  import opened CartSchema
  import opened CouponSchema

  /** The carts collection. Carts are only ever written through this store, and creation
      deletes the owner's cart before saving a new one, so there is at most one per owner. */
  type Carts = map<UserId, Cart>

  datatype CartError =
    | CartEmpty
    | UserNotFound
    | CartNotFound
    | AddressIncomplete(missing: seq<AddressField>)
    | CouponAndUserRequired
    | InvalidCoupon
    | InvalidCart

  /** What the store keeps true of every cart it holds: the key is the owner, and the
      lines passed the line validators when the cart was saved. */
  predicate StoreInvariant(carts: Carts) {
    forall o :: o in carts ==> carts[o].orderedBy == o && LinesValid(carts[o].products)
  }

  /** Every owner other than `owner` has the same cart, or the same absence of one, in
      `before` and `after`. */
  ghost predicate Untouched(before: Carts, after: Carts, owner: UserId) {
    forall o :: o != owner ==> (o in after <==> o in before) && (o in before ==> after[o] == before[o])
  }

  /** `findOneAndUpdate` on the owner's cart: the new document replaces the old under the
      same key and nothing else changes. */
  function Put(carts: Carts, owner: UserId, c: Cart): (r: Carts)
    ensures owner in r && r[owner] == c
    ensures Untouched(carts, r, owner)
    ensures StoreInvariant(carts) && c.orderedBy == owner && LinesValid(c.products) ==> StoreInvariant(r)
  {
    carts[owner := c]
  }

  /** One entry of the request's `items`; an empty `title` is a falsy one. */
  datatype ItemInput = ItemInput(product: ProductId, count: int, color: string, price: real, title: string)

  /** The body of a create request; `None` is a key left out. */
  datatype CreateRequest = CreateRequest(
    items: Option<seq<ItemInput>>,
    total: Option<real>,
    userId: UserId,
    address: Option<Address>
  )

  /** The mapping of one request item to a cart line: five keys copied, `size` never set,
      and a falsy `title` turned into an absent one. */
  function FormatItem(item: ItemInput): (l: Line)
    ensures l.size.None?
    ensures l.title.None? <==> item.title == ""
    ensures l.title.Some? ==> l.title.value == item.title
    ensures (l.product, l.count, l.color, l.price) == (item.product, item.count, item.color, item.price)
  {
    Line(item.product, item.count, item.color, item.price, None,
         if item.title == "" then None else Some(item.title))
  }

  /** `items.map(...)`: one line per item, in order; no line has a size, a line has a title
      exactly when its item's title is truthy, and the other four keys are the item's. */
  function FormatItems(items: seq<ItemInput>): (ls: seq<Line>)
    ensures |ls| == |items|
    ensures forall i :: 0 <= i < |items| ==> ls[i] == FormatItem(items[i])
    ensures forall i :: 0 <= i < |ls| ==> ls[i].size.None?
    ensures forall i :: 0 <= i < |items| ==> (ls[i].title.None? <==> items[i].title == "")
    ensures forall i :: 0 <= i < |items| ==>
      (ls[i].product, ls[i].count, ls[i].color, ls[i].price)
        == (items[i].product, items[i].count, items[i].color, items[i].price)
  {
    seq(|items|, i requires 0 <= i < |items| => FormatItem(items[i]))
  }

  /** The cart document that create builds for `owner` before saving it. */
  function RequestedCart(req: CreateRequest, owner: UserId): (c: Cart)
    requires req.items.Some? && req.total.Some?
    ensures c.orderedBy == owner
    ensures c.address == TrimAddress(req.address.GetOr(EmptyAddress))
  {
    NewCart(FormatItems(req.items.value), req.total.value, owner, req.address.GetOr(EmptyAddress))
  }

  /** `save()` of a new cart: the validators decide, and a saved cart is filed under its owner. */
  function SaveCart(carts: Carts, c: Cart): (r: Reply<Carts, Cart, CartError>)
    ensures r.result.Ok? <==> ValidCart(c)
    ensures r.result.Ok? ==> r.result.value == c && r.state == carts[c.orderedBy := c]
    ensures Untouched(carts, r.state, c.orderedBy)
    ensures r.result.Err? ==> r == Reply(carts, Err(InvalidCart))
    ensures StoreInvariant(carts) ==> StoreInvariant(r.state)
  {
    if ValidCart(c) then Reply(carts[c.orderedBy := c], Ok(c)) else Reply(carts, Err(InvalidCart))
  }

  /** The part of POST `/` after its guards: `findOneAndDelete` of the owner's cart, then
      `save()` of the new one. A save that fails leaves the owner with no cart. */
  function ReplaceCart(carts: Carts, req: CreateRequest): (r: Reply<Carts, Cart, CartError>)
    requires req.items.Some?
    ensures r.result.Ok? <==> req.total.Some? && ValidCart(RequestedCart(req, req.userId))
    ensures r.result.Ok? ==>
      && r.result.value == RequestedCart(req, req.userId)
      && req.userId in r.state && r.state[req.userId] == r.result.value
    ensures r.result.Err? ==> r.result.error == InvalidCart && req.userId !in r.state
    ensures Untouched(carts, r.state, req.userId)
    ensures StoreInvariant(carts) ==> StoreInvariant(r.state)
  {
    var rest := carts - {req.userId};
    assert Untouched(carts, rest, req.userId);
    assert StoreInvariant(carts) ==> StoreInvariant(rest);
    if req.total.None? then Reply(rest, Err(InvalidCart))
    else SaveCart(rest, RequestedCart(req, req.userId))
  }

  /** POST `/`: reject an empty cart, then an unknown user; otherwise replace the owner's cart. */
  function CreateCart(carts: Carts, users: seq<User>, req: CreateRequest): (r: Reply<Carts, Cart, CartError>)
    ensures (req.items.None? || req.items.value == []) ==> r == Reply(carts, Err(CartEmpty))
    ensures req.items.Some? && req.items.value != [] && FindById(users, req.userId).None? ==>
      r == Reply(carts, Err(UserNotFound))
    ensures r.result.Ok? <==>
      && req.items.Some? && req.items.value != []
      && FindById(users, req.userId).Some?
      && req.total.Some?
      && ValidCart(RequestedCart(req, req.userId))
    ensures r.result.Ok? ==>
      && r.result.value == RequestedCart(req, req.userId)
      && req.userId in r.state && r.state[req.userId] == r.result.value
    ensures req.items.Some? && req.items.value != [] && FindById(users, req.userId).Some? && r.result.Err? ==>
      r.result.error == InvalidCart && req.userId !in r.state
    ensures Untouched(carts, r.state, req.userId)
    ensures StoreInvariant(carts) ==> StoreInvariant(r.state)
  {
    if req.items.None? || req.items.value == [] then Reply(carts, Err(CartEmpty))
    else if FindById(users, req.userId).None? then Reply(carts, Err(UserNotFound))
    else ReplaceCart(carts, req)
  }

  /** GET `/:userId`: the owner's cart with `cartTotal` rendered by `toFixed(2)`. */
  function GetCart(carts: Carts, userId: UserId): (r: Result<Cart, CartError>)
    ensures r.Ok? <==> userId in carts
    ensures r.Err? ==> r.error == CartNotFound
    ensures r.Ok? ==> r.value == carts[userId].(cartTotal := r.value.cartTotal)
    ensures r.Ok? ==> IsCents(r.value.cartTotal)
    ensures r.Ok? ==> carts[userId].cartTotal - 0.005 <= r.value.cartTotal <= carts[userId].cartTotal + 0.005
  {
    if userId in carts then Ok(carts[userId].(cartTotal := RoundCents(carts[userId].cartTotal)))
    else Err(CartNotFound)
  }

  /** The address keys update-address insists on. */
  datatype AddressField = UnitNumber | Street | City | State | ZipCode | Country | PhoneNumber

  /** The key as it appears in the request body and in the error message. */
  function FieldName(f: AddressField): string {
    match f
    case UnitNumber => "unitNumber"
    case Street => "street"
    case City => "city"
    case State => "state"
    case ZipCode => "zipCode"
    case Country => "country"
    case PhoneNumber => "phoneNumber"
  }

  /** The required list, in the order the handler declares it. */
  const RequiredAddressFields: seq<AddressField> := [UnitNumber, Street, City, State, ZipCode, Country, PhoneNumber]

  /** The position of a field in the required list. */
  function FieldRank(f: AddressField): nat {
    match f
    case UnitNumber => 0
    case Street => 1
    case City => 2
    case State => 3
    case ZipCode => 4
    case Country => 5
    case PhoneNumber => 6
  }

  predicate FieldBefore(f: AddressField, g: AddressField) {
    FieldRank(f) < FieldRank(g)
  }

  /** `address[field]`; an absent key reads as "". */
  function FieldValue(a: Address, f: AddressField): string {
    match f
    case UnitNumber => a.unitNumber
    case Street => a.street
    case City => a.city
    case State => a.state
    case ZipCode => a.zipCode
    case Country => a.country
    case PhoneNumber => a.phoneNumber
  }

  /** Every address field is in the required list, and the list is in rank order. */
  lemma RequiredListComplete(f: AddressField)
    ensures f in RequiredAddressFields
    ensures RequiredAddressFields[FieldRank(f)] == f
  {
  }

  /** The required list is in rank order. */
  lemma RequiredListOrdered()
    ensures Ordered(RequiredAddressFields, FieldBefore)
  {
  }

  /** The required fields whose value in the body is falsy, as `requiredFields.filter`. */
  function MissingFields(a: Address): seq<AddressField> {
    Filter(RequiredAddressFields, (f: AddressField) => FieldValue(a, f) == "")
  }

  /** A field is reported missing exactly when its value is falsy. */
  lemma MissingFieldsMembers(a: Address)
    ensures forall f :: f in MissingFields(a) <==> FieldValue(a, f) == ""
  {
    var p := (f: AddressField) => FieldValue(a, f) == "";
    assert forall f :: f in RequiredAddressFields by {
      forall f ensures f in RequiredAddressFields {
        RequiredListComplete(f);
      }
    }
    assert forall f :: f in Filter(RequiredAddressFields, p) <==> p(f);
  }

  /** The missing fields are reported in the order of the required list. */
  lemma MissingFieldsOrdered(a: Address)
    ensures Ordered(MissingFields(a), FieldBefore)
  {
    RequiredListOrdered();
    FilterKeepsOrder(RequiredAddressFields, (f: AddressField) => FieldValue(a, f) == "", FieldBefore);
  }

  /** Nothing is missing exactly when all seven required fields are truthy, `unitNumber`
      included. */
  lemma NothingMissing(a: Address)
    ensures MissingFields(a) == [] <==>
      && a.unitNumber != "" && a.street != "" && a.city != "" && a.state != ""
      && a.zipCode != "" && a.country != "" && a.phoneNumber != ""
  {
    MissingFieldsMembers(a);
    var r := MissingFields(a);
    assert r != [] ==> FieldValue(a, r[0]) == "";
  }

  /** PUT `/update-address/:userId`: report the missing required fields, or else replace the
      owner's address through `findOneAndUpdate`, which applies the `trim` setters but runs no
      validator. */
  function UpdateAddress(carts: Carts, userId: UserId, body: Address): (r: Reply<Carts, Cart, CartError>)
    ensures MissingFields(body) != [] ==> r == Reply(carts, Err(AddressIncomplete(MissingFields(body))))
    ensures MissingFields(body) == [] && userId !in carts ==> r == Reply(carts, Err(CartNotFound))
    ensures r.result.Ok? <==> MissingFields(body) == [] && userId in carts
    ensures r.result.Ok? ==>
      && r.result.value == carts[userId].(address := TrimAddress(body))
      && userId in r.state && r.state[userId] == r.result.value
    ensures r.result.Err? ==> r.state == carts
    ensures Untouched(carts, r.state, userId)
    ensures StoreInvariant(carts) ==> StoreInvariant(r.state)
  {
    var missing := MissingFields(body);
    if missing != [] then Reply(carts, Err(AddressIncomplete(missing)))
    else if userId !in carts then Reply(carts, Err(CartNotFound))
    else
      var c := carts[userId].(address := TrimAddress(body));
      Reply(Put(carts, userId, c), Ok(c))
  }

  /** DELETE `/:userId`: remove the owner's cart and return it. */
  function DeleteCart(carts: Carts, userId: UserId): (r: Reply<Carts, Cart, CartError>)
    ensures userId !in carts ==> r == Reply(carts, Err(CartNotFound))
    ensures userId in carts ==> r.result == Ok(carts[userId])
    ensures userId !in r.state
    ensures forall o :: o != userId ==> (o in r.state <==> o in carts)
    ensures forall o :: o in r.state ==> r.state[o] == carts[o]
    ensures StoreInvariant(carts) ==> StoreInvariant(r.state)
  {
    if userId in carts then Reply(carts - {userId}, Ok(carts[userId]))
    else Reply(carts, Err(CartNotFound))
  }

  /** DELETE `/`: `deleteMany({})`. */
  function ClearCarts(carts: Carts): (r: Carts)
    ensures forall o :: GetCart(r, o) == Err(CartNotFound)
    ensures forall o :: DeleteCart(r, o).result == Err(CartNotFound)
  {
    map[]
  }

  /** POST `/apply-coupon`: check the body, the coupon (looked up with the name setters
      applied to the query value), the user and the cart, in that order; then overwrite
      `cartTotal` with the discounted total, with no validator run. */
  function ApplyCoupon(carts: Carts, users: seq<User>, coupons: seq<Coupon>, coupon: string, userId: UserId)
    : (r: Reply<Carts, Cart, CartError>)
    ensures coupon == "" || userId == "" ==> r == Reply(carts, Err(CouponAndUserRequired))
    ensures coupon != "" && userId != "" && FindByName(coupons, NormaliseName(coupon)).None? ==>
      r == Reply(carts, Err(InvalidCoupon))
    ensures coupon != "" && userId != "" && FindByName(coupons, NormaliseName(coupon)).Some?
            && FindById(users, userId).None? ==>
      r == Reply(carts, Err(UserNotFound))
    ensures coupon != "" && userId != "" && FindByName(coupons, NormaliseName(coupon)).Some?
            && FindById(users, userId).Some? && userId !in carts ==>
      r == Reply(carts, Err(CartNotFound))
    ensures r.result.Err? ==> r.state == carts
    ensures r.result.Ok? <==>
      && coupon != "" && userId != ""
      && FindByName(coupons, NormaliseName(coupon)).Some?
      && FindById(users, userId).Some?
      && userId in carts
    ensures r.result.Ok? ==>
      var d := FindByName(coupons, NormaliseName(coupon)).value.discount;
      && r.result.value == carts[userId].(cartTotal := Discount(carts[userId].cartTotal, d))
      && userId in r.state && r.state[userId] == r.result.value
    ensures Untouched(carts, r.state, userId)
    ensures StoreInvariant(carts) ==> StoreInvariant(r.state)
  {
    if coupon == "" || userId == "" then Reply(carts, Err(CouponAndUserRequired))
    else match FindByName(coupons, NormaliseName(coupon))
      case None => Reply(carts, Err(InvalidCoupon))
      case Some(valid) =>
        if FindById(users, userId).None? then Reply(carts, Err(UserNotFound))
        else if userId !in carts then Reply(carts, Err(CartNotFound))
        else
          var cart := carts[userId];
          var updated := cart.(cartTotal := Discount(cart.cartTotal, valid.discount));
          Reply(Put(carts, userId, updated), Ok(updated))
  }
}

=== FILE: cart_schema.dfy ===
/** Cart documents: the address sub-document, cart lines and the cart itself, with the
    `trim` setters and the validators that `save()` runs. */
module CartSchema {
  import opened Results
  import opened Text
  import opened UserSchema

  type ProductId = string

  /** A shipping address; an empty string stands for an absent field. */
  datatype Address = Address(
    unitNumber: string,
    street: string,
    city: string,
    state: string,
    zipCode: string,
    country: string,
    phoneNumber: string,
    message: string
  )

  /** The `{}` a cart gets when the request has no address. */
  const EmptyAddress := Address("", "", "", "", "", "", "", "")

  const MaxMessageLength := 500

  /** Every address field is declared with `trim: true`. */
  function TrimAddress(a: Address): Address {
    Address(Trim(a.unitNumber), Trim(a.street), Trim(a.city), Trim(a.state), Trim(a.zipCode),
            Trim(a.country), Trim(a.phoneNumber), Trim(a.message))
  }

  /** `^[0-9]{5}(-[0-9]{4})?$`: a US ZIP code or ZIP+4. */
  predicate IsZipCode(s: string) {
    || (|s| == 5 && AllDigits(s))
    || (|s| == 10 && AllDigits(s[..5]) && s[5] == '-' && AllDigits(s[6..]))
  }

  /** The class `[0-9-+()]`. */
  predicate IsPhoneChar(c: char) {
    IsDigit(c) || c == '-' || c == '+' || c == '(' || c == ')'
  }

  /** `^[0-9-+()]{7,20}$`. */
  predicate IsPhoneNumber(s: string) {
    7 <= |s| <= 20 && forall i :: 0 <= i < |s| ==> IsPhoneChar(s[i])
  }

  /** The address validators: six required fields, the two patterns, and the message bound;
      `unitNumber` is optional. */
  predicate ValidAddress(a: Address) {
    && a.street != "" && a.city != "" && a.state != "" && a.zipCode != ""
    && a.country != "" && a.phoneNumber != ""
    && IsZipCode(a.zipCode) && IsPhoneNumber(a.phoneNumber)
    && Utf16Length(a.message) <= MaxMessageLength
  }

  /** One product line. The same shape is copied into orders. */
  datatype Line = Line(
    product: ProductId,
    count: int,
    color: string,
    price: real,
    size: Option<string>,
    title: Option<string>
  )

  function TrimOption(o: Option<string>): Option<string> {
    match o
    case None => None
    case Some(s) => Some(Trim(s))
  }

  /** `color`, `size` and `title` are declared with `trim: true`. */
  function TrimLine(l: Line): Line {
    l.(color := Trim(l.color), size := TrimOption(l.size), title := TrimOption(l.title))
  }

  /** A cart line: product required, `count >= 1`, colour required, `price >= 0`. */
  predicate ValidLine(l: Line) {
    l.product != "" && l.count >= 1 && l.color != "" && l.price >= 0.0
  }

  predicate LinesValid(ls: seq<Line>) {
    forall i :: 0 <= i < |ls| ==> ValidLine(ls[i])
  }

  datatype Cart = Cart(
    products: seq<Line>,
    cartTotal: real,
    totalAfterDiscount: real,
    orderedBy: UserId,
    address: Address
  )

  /** Everything `save()` checks on a cart. */
  predicate ValidCart(c: Cart) {
    && LinesValid(c.products)
    && c.cartTotal >= 0.0
    && c.totalAfterDiscount >= 0.0
    && c.orderedBy != ""
    && ValidAddress(c.address)
  }

  /** The `trim` setters applied to every line of a cart. */
  function TrimLines(ls: seq<Line>): (r: seq<Line>)
    ensures |r| == |ls|
    ensures forall i :: 0 <= i < |ls| ==> r[i] == TrimLine(ls[i])
  {
    if ls == [] then [] else [TrimLine(ls[0])] + TrimLines(ls[1..])
  }

  /** A new cart document: setters applied, `totalAfterDiscount` at its default 0. */
  function NewCart(products: seq<Line>, total: real, owner: UserId, address: Address): Cart {
    Cart(TrimLines(products), total, 0.0, owner, TrimAddress(address))
  }

  /** The two patterns on sample values, including the edge lengths. */
  lemma PatternExamples()
    ensures IsZipCode("90210") && IsZipCode("90210-1234")
    ensures !IsZipCode("9021") && !IsZipCode("902101") && !IsZipCode("90210-123")
    ensures !IsZipCode("90210 1234") && !IsZipCode("9021a")
    ensures IsPhoneNumber("555-1234") && IsPhoneNumber("+61(2)99991234")
    ensures !IsPhoneNumber("555123") && !IsPhoneNumber("555 1234")
    ensures !IsPhoneNumber("123456789012345678901")
  {
    assert "9021a"[4] == 'a';
    assert "90210 1234"[5] == ' ';
    assert "555 1234"[3] == ' ';
  }

  /** A value that passes either pattern has no white space, so the `trim` setter that
      runs before the validator leaves it unchanged. */
  lemma PatternValuesAreTrimmed(s: string)
    requires IsZipCode(s) || IsPhoneNumber(s)
    ensures Trim(s) == s
  {
    if IsZipCode(s) && |s| == 10 {
      assert IsDigit(s[..5][0]);
      assert IsDigit(s[6..][3]);
    }
    TrimOfTrimmed(s);
  }

  /** An address valid under the schema with its optional `unitNumber` left out. */
  const SampleAddress := Address("", "1 Main St", "Springfield", "IL", "62701", "US", "555-0100", "")

  /** An address whose street is blank, as in the `{}` a cart gets without an address,
      has an empty street once the setters run, and fails the validators. */
  lemma BlankStreetIsInvalid(a: Address)
    requires AllSpace(a.street)
    ensures !ValidAddress(TrimAddress(a))
  {
    assert |TrimStart(a.street)| == 0;
  }

  /** The sample address passes the validators without a `unitNumber`. */
  lemma SampleAddressIsValid()
    ensures ValidAddress(SampleAddress) && SampleAddress.unitNumber == ""
  {
    assert IsZipCode("62701");
    assert IsPhoneNumber("555-0100");
  }
}

=== FILE: cart_slice.dfy ===
/** The client-side cart: a list of items kept in the browser, changed by three reducers
    that find an item by its `_id`. */
module CartSlice {
  import opened Results
  import opened Collections

  /** A cart item as the client keeps it. The payload of `addToCart` is stored whole, so an
      item carries whatever the product page sent; the model keeps the fields the pages use. */
  datatype Item = Item(id: string, color: string, count: int, title: string, price: real)

  /** The test `product._id === _id` of `findIndex` and `find`. */
  function HasId(id: string): Item -> bool {
    (it: Item) => it.id == id
  }

  /** No two items share an `_id`. */
  predicate UniqueIds(s: seq<Item>) {
    forall i, j :: 0 <= i < j < |s| ==> s[i].id != s[j].id
  }

  /** `addToCart`: an item with the payload's `_id` gets the payload's colour and count;
      otherwise the payload is appended. */
  function AddToCart(s: seq<Item>, payload: Item): (r: seq<Item>)
    ensures FirstIndex(s, HasId(payload.id)).None? ==> r == s + [payload]
    ensures FirstIndex(s, HasId(payload.id)).Some? ==>
      var i := FirstIndex(s, HasId(payload.id)).value;
      && |r| == |s|
      && r[i] == s[i].(color := payload.color, count := payload.count)
      && forall k :: 0 <= k < |s| && k != i ==> r[k] == s[k]
    ensures UniqueIds(s) ==> UniqueIds(r)
  {
    match FirstIndex(s, HasId(payload.id))
    case Some(i) => s[i := s[i].(color := payload.color, count := payload.count)]
    case None => s + [payload]
  }

  /** `updateCartProductColor`: the first item with the `_id` gets the new colour; without
      one the list is left as it is. */
  function UpdateColor(s: seq<Item>, id: string, color: string): (r: seq<Item>)
    ensures FirstIndex(s, HasId(id)).None? ==> r == s
    ensures |r| == |s|
    ensures FirstIndex(s, HasId(id)).Some? ==>
      var i := FirstIndex(s, HasId(id)).value;
      && r[i] == s[i].(color := color)
      && forall k :: 0 <= k < |s| && k != i ==> r[k] == s[k]
    ensures forall k :: 0 <= k < |s| ==> r[k].id == s[k].id
  {
    match FirstIndex(s, HasId(id))
    case Some(i) => s[i := s[i].(color := color)]
    case None => s
  }

  /** `updateCartProductCount`: the first item with the `_id` gets the new count; without
      one the list is left as it is. */
  function UpdateCount(s: seq<Item>, id: string, count: int): (r: seq<Item>)
    ensures FirstIndex(s, HasId(id)).None? ==> r == s
    ensures |r| == |s|
    ensures FirstIndex(s, HasId(id)).Some? ==>
      var i := FirstIndex(s, HasId(id)).value;
      && r[i] == s[i].(count := count)
      && forall k :: 0 <= k < |s| && k != i ==> r[k] == s[k]
    ensures forall k :: 0 <= k < |s| ==> r[k].id == s[k].id
  {
    match FirstIndex(s, HasId(id))
    case Some(i) => s[i := s[i].(count := count)]
    case None => s
  }

  /** Adding the same payload twice is the same as adding it once. */
  lemma AddToCartIdempotent(s: seq<Item>, payload: Item)
    ensures AddToCart(AddToCart(s, payload), payload) == AddToCart(s, payload)
  {
    var once := AddToCart(s, payload);
    match FirstIndex(s, HasId(payload.id))
    case Some(i) =>
      assert FirstIndex(once, HasId(payload.id)) == Some(i);
    case None =>
      FirstIndexAppend(s, payload, HasId(payload.id));
  }

  /** For an item already in the list, `addToCart` is `updateCartProductColor` followed by
      `updateCartProductCount`. */
  lemma AddExistingIsTwoUpdates(s: seq<Item>, payload: Item)
    requires exists k :: 0 <= k < |s| && s[k].id == payload.id
    ensures AddToCart(s, payload) == UpdateCount(UpdateColor(s, payload.id, payload.color), payload.id, payload.count)
  {
    var i := FirstIndex(s, HasId(payload.id)).value;
    var c := UpdateColor(s, payload.id, payload.color);
    assert FirstIndex(c, HasId(payload.id)) == Some(i);
  }

  /** After `addToCart`, looking the `_id` up finds the payload's colour and count. */
  lemma AddThenFind(s: seq<Item>, payload: Item)
    ensures var r := AddToCart(s, payload);
      && FirstIndex(r, HasId(payload.id)).Some?
      && r[FirstIndex(r, HasId(payload.id)).value].color == payload.color
      && r[FirstIndex(r, HasId(payload.id)).value].count == payload.count
  {
    var r := AddToCart(s, payload);
    match FirstIndex(s, HasId(payload.id))
    case Some(i) =>
      assert FirstIndex(r, HasId(payload.id)) == Some(i);
    case None =>
      FirstIndexAppend(s, payload, HasId(payload.id));
  }
}

=== FILE: collections.dfy ===
/** Searching and filtering over the ordered document collections of the model. */
module Collections {
  import opened Results

  /** One condition of a query filter whose value comes from a request body. Mongoose
      removes a key whose value is `undefined` before the query runs, so an absent value
      constrains nothing. */
  predicate KeyMatches<T(==)>(key: Option<T>, value: T) {
    key.None? || key.value == value
  }

  /** The position of the first element satisfying `p`, as `Array#findIndex` and `findOne` pick it. */
  function FirstIndex<T>(s: seq<T>, p: T -> bool): (r: Option<nat>)
    ensures r.Some? ==> r.value < |s| && p(s[r.value])
    ensures r.Some? ==> forall k :: 0 <= k < r.value ==> !p(s[k])
    ensures r.None? <==> forall k :: 0 <= k < |s| ==> !p(s[k])
  {
    if |s| == 0 then None
    else if p(s[0]) then Some(0)
    else match FirstIndex(s[1..], p)
      case None => None
      case Some(i) => Some(i + 1)
  }

  /** Two filters that agree on every element pick the same position. */
  lemma {:induction false} FirstIndexSame<T>(s: seq<T>, p: T -> bool, q: T -> bool)
    requires forall x :: p(x) == q(x)
    ensures FirstIndex(s, p) == FirstIndex(s, q)
  {
    if |s| > 0 {
      FirstIndexSame(s[1..], p, q);
    }
  }

  /** The first element satisfying `p`, if any. */
  function FindFirst<T(==,!new)>(s: seq<T>, p: T -> bool): (r: Option<T>)
    ensures r.Some? ==> r.value in s && p(r.value)
    ensures r.Some? ==> FirstIndex(s, p).Some? && r.value == s[FirstIndex(s, p).value]
    ensures r.None? <==> forall x :: x in s ==> !p(x)
  {
    match FirstIndex(s, p)
    case None => None
    case Some(i) => Some(s[i])
  }

  /** The elements satisfying `p`, in their original order (`find(filter)`, `Array#filter`). */
  function Filter<T(==,!new)>(s: seq<T>, p: T -> bool): (r: seq<T>)
    ensures |r| <= |s|
    ensures forall x :: x in r <==> x in s && p(x)
  {
    if |s| == 0 then []
    else if p(s[0]) then [s[0]] + Filter(s[1..], p)
    else Filter(s[1..], p)
  }

  /** Filtering distributes over concatenation. */
  lemma {:induction false} FilterAppend<T(!new)>(a: seq<T>, b: seq<T>, p: T -> bool)
    ensures Filter(a + b, p) == Filter(a, p) + Filter(b, p)
  {
    if |a| == 0 {
      assert a + b == b;
    } else {
      assert (a + b)[1..] == a[1..] + b;
      FilterAppend(a[1..], b, p);
    }
  }

  /** Filtering keeps exactly the matching occurrences: the multiset of the result is
      the multiset of the input restricted to `p`. */
  lemma {:induction false} FilterCount<T(!new)>(s: seq<T>, p: T -> bool, x: T)
    ensures multiset(Filter(s, p))[x] == if p(x) then multiset(s)[x] else 0
  {
    if |s| > 0 {
      assert s == [s[0]] + s[1..];
      FilterCount(s[1..], p, x);
    }
  }

  /** Appending an element that matches, after elements that do not, makes it the first match. */
  lemma FirstIndexAppend<T>(s: seq<T>, x: T, p: T -> bool)
    requires forall k :: 0 <= k < |s| ==> !p(s[k])
    requires p(x)
    ensures FirstIndex(s + [x], p) == Some(|s|)
  {
    assert (s + [x])[|s|] == x;
  }

  /** `s` without its element at position `i`, the rest in order. */
  function RemoveAt<T>(s: seq<T>, i: nat): (r: seq<T>)
    requires i < |s|
    ensures |r| == |s| - 1
    ensures forall a :: 0 <= a < |r| ==> r[a] == if a < i then s[a] else s[a + 1]
    ensures multiset(r) == multiset(s) - multiset{s[i]}
  {
    assert s == s[..i] + [s[i]] + s[i + 1..];
    s[..i] + s[i + 1..]
  }

  /** Every earlier element of `s` stands in relation `before` to every later one. */
  ghost predicate Ordered<T>(s: seq<T>, before: (T, T) -> bool)
  {
    forall i, j :: 0 <= i < j < |s| ==> before(s[i], s[j])
  }

  /** Filtering keeps the relative order of the elements it keeps: any relation that holds
      between earlier and later elements of `s` still holds in the result. */
  lemma {:induction false} FilterKeepsOrder<T(!new)>(s: seq<T>, p: T -> bool, before: (T, T) -> bool)
    requires Ordered(s, before)
    ensures Ordered(Filter(s, p), before)
  {
    if |s| > 0 {
      var tail := s[1..];
      assert Ordered(tail, before) by {
        forall i, j | 0 <= i < j < |tail|
          ensures before(tail[i], tail[j])
        {
          assert tail[i] == s[i + 1] && tail[j] == s[j + 1];
        }
      }
      var rest := Filter(tail, p);
      FilterKeepsOrder(tail, p, before);
      if p(s[0]) {
        var r := [s[0]] + rest;
        assert Filter(s, p) == r;
        forall i, j | 0 <= i < j < |r|
          ensures before(r[i], r[j])
        {
          if i == 0 {
            assert r[j] in tail;
            var k :| 0 <= k < |tail| && tail[k] == r[j];
            assert tail[k] == s[k + 1];
          } else {
            assert r[i] == rest[i - 1] && r[j] == rest[j - 1];
          }
        }
      } else {
        assert Filter(s, p) == rest;
      }
    }
  }

  /** In an ordered sequence of copies of `x` with two or more elements, `x` comes before itself. */
  lemma OrderedCopies<T>(r: seq<T>, x: T, before: (T, T) -> bool)
    requires Ordered(r, before) && |r| >= 2
    requires forall i :: 0 <= i < |r| ==> r[i] == x
    ensures before(x, x)
  {
    assert before(r[0], r[1]);
  }

  /** A sequence ordered by an irreflexive relation that holds only copies of `x`, and at
      least one, is `[x]`. */
  lemma OrderedSingleton<T>(r: seq<T>, x: T, before: (T, T) -> bool)
    requires Ordered(r, before) && !before(x, x)
    requires x in r && forall i :: 0 <= i < |r| ==> r[i] == x
    ensures r == [x]
  {
    if |r| >= 2 {
      OrderedCopies(r, x, before);
      assert false;
    }
  }
}

=== FILE: coupon_router.dfy ===
/** The coupon routes: create, delete by id, and the newest-first listing. The save time
    and the new document's id come in as parameters. */
module CouponRouter {
  import opened Results
  import opened Text
  import opened Collections
  import opened Sorting
  import opened CouponSchema

  datatype CouponError = FieldsRequired | NotSaved(reason: SaveError) | CouponNotFound

  /** POST /: all three fields must be truthy (a zero discount stands for an absent one and
      is refused with it); then the document is built through the setters and saved. */
  function CreateCoupon(store: seq<Coupon>, name: string, expiry: string, discount: real,
                        id: CouponId, now: int): (r: Reply<seq<Coupon>, Coupon, CouponError>)
    ensures name == "" || expiry == "" || discount == 0.0 ==> r == Reply(store, Err(FieldsRequired))
    ensures r.result.Err? ==> r.state == store
    ensures r.result.Ok? <==>
      name != "" && expiry != "" && discount != 0.0
      && MinNameLength <= Utf16Length(NormaliseName(name)) <= MaxNameLength
      && (forall d :: d in store ==> d.name != NormaliseName(name) && d.id != id)
    ensures r.result.Ok? ==>
      var c := r.result.value;
      && r.state == store + [c]
      && c == Coupon(id, NormaliseName(name), expiry, discount, now)
      && MinNameLength <= Utf16Length(c.name) <= MaxNameLength
  {
    if name == "" || expiry == "" || discount == 0.0 then Reply(store, Err(FieldsRequired))
    else
      var c := Coupon(id, NormaliseName(name), expiry, discount, now);
      var saved := SaveCoupon(store, c);
      assert ValidCoupon(c) <==> MinNameLength <= Utf16Length(c.name) <= MaxNameLength;
      match saved.result
      case Ok(v) => Reply(saved.state, Ok(v))
      case Err(e) => Reply(saved.state, Err(NotSaved(e)))
  }

  /** Create keeps the two store invariants: names stay unique and in normal form. */
  lemma CreateKeepsInvariants(store: seq<Coupon>, name: string, expiry: string, discount: real,
                              id: CouponId, now: int)
    ensures var r := CreateCoupon(store, name, expiry, discount, id, now);
      && (UniqueNames(store) ==> UniqueNames(r.state))
      && (NamesNormalised(store) ==> NamesNormalised(r.state))
  {
    var r := CreateCoupon(store, name, expiry, discount, id, now);
    if r.result.Ok? {
      var c := r.result.value;
      assert r.state == store + [c] && c.name == NormaliseName(name);
      assert forall d :: d in store ==> d.name != c.name;
      NormaliseNameIdempotent(name);
      AppendKeepsNormalised(store, c);
      AppendKeepsUnique(store, c);
    } else {
      assert r.state == store;
    }
  }

  /** The filter `{ _id }` of `findByIdAndDelete`. */
  function HasCouponId(id: CouponId): Coupon -> bool {
    (c: Coupon) => c.id == id
  }

  /** DELETE /:couponId: removes the coupon with that id and returns it. */
  function DeleteCoupon(store: seq<Coupon>, id: CouponId): (r: Reply<seq<Coupon>, Coupon, CouponError>)
    ensures r.result.Ok? <==> exists c :: c in store && c.id == id
    ensures r.result.Err? ==> r.result.error == CouponNotFound && r.state == store
    ensures r.result.Ok? ==>
      && r.result.value.id == id
      && r.state == RemoveAt(store, FirstIndex(store, HasCouponId(id)).value)
      && |r.state| == |store| - 1
      && multiset(r.state) == multiset(store) - multiset{r.result.value}
    ensures UniqueNames(store) ==> UniqueNames(r.state)
  {
    match FirstIndex(store, HasCouponId(id))
    case None => Reply(store, Err(CouponNotFound))
    case Some(i) =>
      var rest := RemoveAt(store, i);
      RemoveKeepsUniqueNames(store, i);
      Reply(rest, Ok(store[i]))
  }

  lemma RemoveKeepsUniqueNames(store: seq<Coupon>, i: nat)
    requires i < |store|
    ensures UniqueNames(store) ==> UniqueNames(RemoveAt(store, i))
  {
    var rest := RemoveAt(store, i);
    if UniqueNames(store) {
      forall a, b | 0 <= a < b < |rest|
        ensures rest[a].name != rest[b].name
      {
        var a' := if a < i then a else a + 1;
        var b' := if b < i then b else b + 1;
        assert rest[a] == store[a'] && rest[b] == store[b'] && a' < b';
      }
    }
  }

  /** GET /: every coupon, newest first. */
  function ListCoupons(store: seq<Coupon>): (r: seq<Coupon>)
    ensures SortedDesc(r, CreatedAt)
    ensures multiset(r) == multiset(store)
  {
    SortDesc(store, CreatedAt)
  }
}

=== FILE: coupon_schema.dfy ===
/** Coupon documents: the normalised unique name with its length bounds, and the required
    expiry and discount, over the coupon collection in its natural order. */
module CouponSchema {
  import opened Results
  import opened Text
  import opened Collections

  type CouponId = string

  const MinNameLength := 3
  const MaxNameLength := 12

  /** A stored coupon. `expiry` is kept as sent; `discount` is a percentage with no declared
      range; `createdAt` is the save time from the `timestamps` option. */
  datatype Coupon = Coupon(id: CouponId, name: string, expiry: string, discount: real, createdAt: int)

  function CreatedAt(c: Coupon): int {
    c.createdAt
  }

  /** The `trim` and `uppercase` setters on `name`; they run on stored values and on query
      values alike. */
  function NormaliseName(s: string): (r: string)
    ensures Trimmed(r)
    ensures forall i :: 0 <= i < |r| ==> !IsLower(r[i])
    ensures |r| <= |s|
  {
    var t := Trim(s);
    UpperKeepsTrimmed(t);
    Upper(t)
  }

  /** A stored name normalises to itself. */
  lemma NormaliseNameIdempotent(s: string)
    ensures NormaliseName(NormaliseName(s)) == NormaliseName(s)
  {
    var r := NormaliseName(s);
    TrimOfTrimmed(r);
    assert Upper(r) == r;
  }

  /** Whatever order Mongoose runs the two setters in, the stored name is the same. */
  lemma NormaliseNameSetterOrder(s: string)
    ensures NormaliseName(s) == Trim(Upper(s))
  {
    UpperTrimCommute(s);
  }

  /** The validators `save()` runs: the name length after the setters, a present expiry. */
  predicate ValidCoupon(c: Coupon) {
    MinNameLength <= Utf16Length(c.name) <= MaxNameLength && c.expiry != ""
  }

  /** The name bounds count UTF-16 code units: two emoji are four units and pass the
      minimum of 3, seven emoji are fourteen and fail the maximum of 12. */
  lemma NameLengthInCodeUnits()
    ensures ValidCoupon(Coupon("c1", "\U{1F600}\U{1F600}", "2030-01-01", 10.0, 0))
    ensures !ValidCoupon(Coupon("c1", "\U{1F600}\U{1F600}\U{1F600}\U{1F600}\U{1F600}\U{1F600}\U{1F600}",
                                "2030-01-01", 10.0, 0))
  {
    assert Utf16Length("\U{1F600}\U{1F600}") == 4 by {
      assert "\U{1F600}\U{1F600}"[1..] == "\U{1F600}";
      assert "\U{1F600}"[1..] == "";
    }
  }

  /** The unique index on `name` holds. */
  predicate UniqueNames(store: seq<Coupon>) {
    forall i, j :: 0 <= i < j < |store| ==> store[i].name != store[j].name
  }

  /** Every stored name is in normal form. */
  predicate NamesNormalised(store: seq<Coupon>) {
    forall i :: 0 <= i < |store| ==> NormaliseName(store[i].name) == store[i].name
  }

  function FindByName(store: seq<Coupon>, name: string): Option<Coupon> {
    FindFirst(store, (c: Coupon) => c.name == name)
  }

  datatype SaveError = ValidationFailed | DuplicateKey

  /** `save()` of a new coupon: validation first, then the unique indexes on `name` and `_id`. */
  function SaveCoupon(store: seq<Coupon>, c: Coupon): (r: Reply<seq<Coupon>, Coupon, SaveError>)
    ensures r.result.Ok? <==>
      ValidCoupon(c) && (forall d :: d in store ==> d.name != c.name && d.id != c.id)
    ensures r.result.Ok? ==> r.state == store + [c] && r.result.value == c
    ensures r.result.Err? ==> r.state == store
    ensures UniqueNames(store) ==> UniqueNames(r.state)
  {
    if !ValidCoupon(c) then Reply(store, Err(ValidationFailed))
    else if FindByName(store, c.name).Some?
         || FindFirst(store, (d: Coupon) => d.id == c.id).Some? then Reply(store, Err(DuplicateKey))
    else Reply(store + [c], Ok(c))
  }

  /** Adding a coupon whose name no stored coupon has keeps names unique. */
  lemma AppendKeepsUnique(store: seq<Coupon>, c: Coupon)
    requires forall d :: d in store ==> d.name != c.name
    ensures UniqueNames(store) ==> UniqueNames(store + [c])
  {
    var s := store + [c];
    forall i | 0 <= i < |s|
      ensures s[i] == if i < |store| then store[i] else c
    {
    }
  }

  /** Adding a coupon whose name is in normal form keeps every stored name in normal form. */
  lemma AppendKeepsNormalised(store: seq<Coupon>, c: Coupon)
    ensures NamesNormalised(store) && NormaliseName(c.name) == c.name ==> NamesNormalised(store + [c])
  {
    var s := store + [c];
    forall i | 0 <= i < |s|
      ensures s[i] == if i < |store| then store[i] else c
    {
    }
  }
}

=== FILE: money.dfy ===
/** Money amounts as exact reals, and the two-decimal rounding of `Number#toFixed(2)`. */
module Money {

  /** `x` is a whole number of cents. */
  predicate IsCents(x: real) {
    (x * 100.0).Floor as real == x * 100.0
  }

  /** Half-up rounding of a non-negative amount to cents. */
  function RoundUpHalf(x: real): (r: real)
    requires x >= 0.0
    ensures r >= 0.0
    ensures IsCents(r)
    ensures x - 0.005 < r <= x + 0.005
    ensures IsCents(x) ==> r == x
  {
    var n := (x * 100.0 + 0.5).Floor;
    assert n as real <= x * 100.0 + 0.5 < n as real + 1.0;
    var r := n as real / 100.0;
    assert r * 100.0 == n as real;
    assert (n as real).Floor == n;
    assert IsCents(x) ==> n == (x * 100.0).Floor;
    r
  }

  /** `Number(x.toFixed(2))`: rounds the magnitude to cents, halves away from zero,
      and keeps the sign. */
  function RoundCents(x: real): (r: real)
    ensures IsCents(r)
    ensures x - 0.005 <= r <= x + 0.005
    ensures x >= 0.0 ==> r >= 0.0
    ensures IsCents(x) ==> r == x
  {
    if x >= 0.0 then RoundUpHalf(x)
    else
      CentsNegate(x);
      var m := RoundUpHalf(-x);
      CentsNegate(m);
      -m
  }

  /** Whole cents stay whole cents under negation. */
  lemma CentsNegate(x: real)
    ensures IsCents(x) <==> IsCents(-x)
  {
    assert (-x) * 100.0 == -(x * 100.0);
    if IsCents(x) {
      var n := (x * 100.0).Floor;
      FloorOfWhole(-n);
    }
    if IsCents(-x) {
      var m := ((-x) * 100.0).Floor;
      FloorOfWhole(-m);
    }
  }

  lemma FloorOfWhole(k: int)
    ensures (k as real).Floor == k
  {
  }

  /** Rounding to cents never reverses the order of two amounts. */
  lemma RoundCentsMonotone(x: real, y: real)
    requires x <= y
    ensures RoundCents(x) <= RoundCents(y)
  {
    if x >= 0.0 {
      assert (x * 100.0 + 0.5).Floor <= (y * 100.0 + 0.5).Floor;
    } else if y < 0.0 {
      assert (-y * 100.0 + 0.5).Floor <= (-x * 100.0 + 0.5).Floor;
    }
  }

  /** The new cart total after a `percent` discount: `total - total * percent / 100`,
      then rounded by `toFixed(2)`. */
  function Discount(total: real, percent: real): real {
    RoundCents(total - total * percent / 100.0)
  }

  /** A discount between 0 and 100 percent keeps a non-negative whole-cent total
      between zero and its old value. */
  lemma DiscountBounds(total: real, percent: real)
    requires total >= 0.0 && IsCents(total)
    requires 0.0 <= percent <= 100.0
    ensures 0.0 <= Discount(total, percent) <= total
  {
    CutBounds(total, percent);
    RoundedBetween(total - total * percent / 100.0, total);
  }

  /** Rounding an amount between zero and a whole-cent bound stays between them. */
  lemma RoundedBetween(a: real, bound: real)
    requires 0.0 <= a <= bound && IsCents(bound)
    ensures 0.0 <= RoundCents(a) <= bound
  {
    RoundCentsMonotone(a, bound);
  }

  /** The amount taken off by a discount of at most 100 percent is at most the total. */
  lemma CutBounds(total: real, percent: real)
    requires total >= 0.0 && 0.0 <= percent <= 100.0
    ensures 0.0 <= total * percent / 100.0 <= total
  {
    assert total * percent >= 0.0;
    assert total * 100.0 - total * percent == total * (100.0 - percent);
  }

  /** A discount above 100 percent turns a positive total negative. */
  lemma DiscountOverHundredGoesNegative()
    ensures Discount(10.0, 150.0) == -5.0
  {
    assert 10.0 - 10.0 * 150.0 / 100.0 == -5.0;
    assert IsCents(-5.0);
  }

  /** Applying the same discount twice compounds it: 10 percent off 100 twice is 81. */
  lemma DiscountCompounds()
    ensures Discount(100.0, 10.0) == 90.0
    ensures Discount(Discount(100.0, 10.0), 10.0) == 81.0
  {
    assert IsCents(90.0);
    assert IsCents(81.0);
    assert 100.0 - 100.0 * 10.0 / 100.0 == 90.0;
    assert 90.0 - 90.0 * 10.0 / 100.0 == 81.0;
  }
}

=== FILE: order_router.dfy ===
/** POST `/createOrder`: turn the owner's cart into an order. The cart is deleted first and
    the order saved after, so a failed save loses the cart without creating an order. */
module OrderRouter {
  import opened Results
  import opened Collections
  import opened UserSchema
  import opened CartSchema
  import CartRouter
  import opened OrderSchema

  /** The orders collection, keyed by `_id`. */
  type Orders = map<OrderId, Order>

  /** The three collections the handler touches. */
  datatype Shop = Shop(users: seq<User>, carts: CartRouter.Carts, orders: Orders)

  /** Every failure inside the handler's `try` block is answered "Failed to create order". */
  datatype OrderError = UserNotFound | CartNotFound | SaveFailed

  /** Creates an order for `userId` from its cart. `orderId` is the `_id` the new document
      gets; `writeFails` stands for a database write that fails for reasons outside the
      model. A clash on `_id` also makes the save fail. */
  function CreateOrder(s: Shop, paymentIntentId: string, userId: UserId, orderId: OrderId, writeFails: bool)
    : (r: Reply<Shop, Order, OrderError>)
    ensures FindById(s.users, userId).None? ==> r == Reply(s, Err(UserNotFound))
    ensures FindById(s.users, userId).Some? && userId !in s.carts ==> r == Reply(s, Err(CartNotFound))
    ensures r.result.Ok? <==>
      && FindById(s.users, userId).Some? && userId in s.carts
      && !writeFails && orderId !in s.orders
      && ValidOrder(NewOrder(orderId, s.carts[userId].products, paymentIntentId, userId))
    ensures r.result.Ok? ==>
      && r.result.value.products == s.carts[userId].products
      && r.result.value.paymentIntent == paymentIntentId
      && r.result.value.orderedBy == userId
      && r.result.value.orderStatus == DefaultOrderStatus
      && r.state.orders == s.orders[orderId := r.result.value]
    ensures r.result == Err(SaveFailed) ==> r.state.orders == s.orders
    ensures r.result.Ok? || r.result == Err(SaveFailed) ==> userId in s.carts && userId !in r.state.carts
    ensures r.state.users == s.users
    ensures CartRouter.Untouched(s.carts, r.state.carts, userId)
  {
    if FindById(s.users, userId).None? then Reply(s, Err(UserNotFound))
    else if userId !in s.carts then Reply(s, Err(CartNotFound))
    else
      var cart := s.carts[userId];
      var rest := s.carts - {userId};
      assert CartRouter.Untouched(s.carts, rest, userId);
      var o := NewOrder(orderId, cart.products, paymentIntentId, userId);
      if writeFails || orderId in s.orders || !ValidOrder(o) then Reply(s.(carts := rest), Err(SaveFailed))
      else Reply(Shop(s.users, rest, s.orders[orderId := o]), Ok(o))
  }

  /** A second call for the same user, with no cart created in between, finds no cart: each
      cart yields at most one order, and a call that lost the cart cannot be retried. */
  lemma CreateOrderTwice(s: Shop, pi1: string, pi2: string, userId: UserId, id1: OrderId, id2: OrderId,
                         fails1: bool, fails2: bool)
    requires CreateOrder(s, pi1, userId, id1, fails1).result.Ok?
             || CreateOrder(s, pi1, userId, id1, fails1).result == Err(SaveFailed)
    ensures var first := CreateOrder(s, pi1, userId, id1, fails1).state;
      CreateOrder(first, pi2, userId, id2, fails2) == Reply(first, Err(CartNotFound))
  {
    var first := CreateOrder(s, pi1, userId, id1, fails1).state;
    assert FindById(first.users, userId).Some?;
  }

  /** A cart kept by the cart store never fails the order validators, so for a known user
      with a cart, a fresh id and a working database the order is created. */
  lemma StoredCartBecomesOrder(s: Shop, paymentIntentId: string, userId: UserId, orderId: OrderId)
    requires CartRouter.StoreInvariant(s.carts)
    requires FindById(s.users, userId).Some? && userId in s.carts && userId != ""
    requires orderId !in s.orders
    ensures CreateOrder(s, paymentIntentId, userId, orderId, false).result.Ok?
  {
    CartLinesMakeValidOrder(orderId, s.carts[userId].products, paymentIntentId, userId);
  }

  /** A successful call adds exactly one order: the number of orders grows by one. */
  lemma CreateOrderAddsOne(s: Shop, paymentIntentId: string, userId: UserId, orderId: OrderId, writeFails: bool)
    requires CreateOrder(s, paymentIntentId, userId, orderId, writeFails).result.Ok?
    ensures |CreateOrder(s, paymentIntentId, userId, orderId, writeFails).state.orders| == |s.orders| + 1
  {
  }
}

=== FILE: order_schema.dfy ===
/** Order documents: lines copied from a cart, the payment intent, the status enum with its
    default, and the owner. */
module OrderSchema {
  import opened Results
  import opened UserSchema
  import opened CartSchema

  type OrderId = string

  const OrderStatuses := ["Not Processed", "Processing", "Dispatched", "Cancelled", "Completed"]

  const DefaultOrderStatus := "Not Processed"

  /** An order. Its lines have the cart line's shape; `paymentIntent` is a schema-less
      field, here the payment-intent id the client sends. */
  datatype Order = Order(
    id: OrderId,
    products: seq<Line>,
    paymentIntent: string,
    orderStatus: string,
    orderedBy: UserId
  )

  /** An order line requires `count`, `color` and `price` and bounds none of them; the
      numeric fields are always present in this model, so only the colour can be missing. */
  predicate ValidOrderLine(l: Line) {
    l.color != ""
  }

  /** Everything `save()` checks on an order. */
  predicate ValidOrder(o: Order) {
    && (forall i :: 0 <= i < |o.products| ==> ValidOrderLine(o.products[i]))
    && o.orderStatus in OrderStatuses
    && o.orderedBy != ""
  }

  /** A new order document: the status takes its default. */
  function NewOrder(id: OrderId, products: seq<Line>, paymentIntent: string, owner: UserId): (o: Order)
    ensures o.orderStatus == DefaultOrderStatus && o.orderStatus in OrderStatuses
    ensures o.products == products && o.paymentIntent == paymentIntent && o.orderedBy == owner
  {
    Order(id, products, paymentIntent, DefaultOrderStatus, owner)
  }

  /** Every line a cart accepts, an order accepts. */
  lemma CartLineIsOrderLine(l: Line)
    requires ValidLine(l)
    ensures ValidOrderLine(l)
  {
  }

  /** The converse fails: an order line may have no product, a count of 0 and a negative
      price, none of which a cart line allows. */
  lemma OrderLineIsLooser()
    ensures var l := Line("", 0, "red", -1.0, None, None);
      ValidOrderLine(l) && !ValidLine(l)
  {
  }

  /** A cart's lines, copied into a new order with an owner, always pass the order
      validators. */
  lemma {:induction false} CartLinesMakeValidOrder(id: OrderId, products: seq<Line>, paymentIntent: string, owner: UserId)
    requires LinesValid(products) && owner != ""
    ensures ValidOrder(NewOrder(id, products, paymentIntent, owner))
  {
    forall i | 0 <= i < |products|
      ensures ValidOrderLine(products[i])
    {
      CartLineIsOrderLine(products[i]);
    }
  }
}

=== FILE: results.dfy ===
/** Success and failure values shared by every handler of the model. */
module Results {

  /** A value that may be absent (`undefined` / `null` in the source). */
  datatype Option<+T> = None | Some(value: T) {

    /** The value, or `default` when absent. */
    function GetOr(default: T): T {
      match this
      case Some(v) => v
      case None => default
    }
  }

  /** What a handler answers: a success value or an error variant. */
  datatype Result<+T, +E> = Ok(value: T) | Err(error: E)

  /** A handler's reply: the store as the handler leaves it, and the answer. */
  datatype Reply<+S, +T, +E> = Reply(state: S, result: Result<T, E>)
}

=== FILE: review_properties.dfy ===
/** Properties of the review handlers that relate several calls, or that show where the
    updates and the review schema part ways. */
module ReviewProperties {
  import opened Results
  import opened Collections
  import opened ReviewSchema
  import opened ReviewRouter

  /** After a successful add-or-update, looking the pair up finds the returned review. */
  lemma UpsertThenFind(store: Reviews, body: ReviewBody, freshId: ReviewId)
    requires Upsert(store, body, freshId).result.Ok?
    ensures var r := Upsert(store, body, freshId);
      var j := FirstIndex(r.state, SamePair(body.userId, body.productId));
      j.Some? && r.state[j.value] == r.result.value
  {
    var r := Upsert(store, body, freshId);
    match FirstIndex(store, SamePair(body.userId, body.productId))
    case Some(i) =>
      assert FirstIndex(r.state, SamePair(body.userId, body.productId)) == Some(i);
    case None =>
      FirstIndexAppend(store, r.result.value, SamePair(body.userId, body.productId));
  }

  /** Sending the same body twice gives the same store and the same review as sending it
      once: the second call finds the review the first one wrote and sets it to what it
      already holds, whatever fresh id it is offered. */
  lemma UpsertIdempotent(store: Reviews, body: ReviewBody, id1: ReviewId, id2: ReviewId)
    requires Upsert(store, body, id1).result.Ok?
    ensures var first := Upsert(store, body, id1);
      Upsert(first.state, body, id2) == first
  {
    var first := Upsert(store, body, id1);
    var p := SamePair(body.userId, body.productId);
    match FirstIndex(store, p)
    case Some(i) =>
      var rv := Apply(store[i], BodyChanges(body));
      assert first == Reply(store[i := rv], Ok(rv));
      assert FirstIndex(first.state, p) == Some(i);
      ApplyIdempotent(store[i], BodyChanges(body));
      assert first.state[i := rv] == first.state;
    case None =>
      var rv := NewReview(id1, body);
      assert first == Reply(store + [rv], Ok(rv));
      FirstIndexAppend(store, rv, p);
      ApplyBodyToNewReview(id1, body);
      assert first.state[|store| := rv] == first.state;
  }

  /** A second body for a pair that already has a review updates it in place: the number
      of reviews does not grow, and the pair keeps a single review. */
  lemma UpsertExistingKeepsCount(store: Reviews, body: ReviewBody, freshId: ReviewId)
    requires UniquePairs(store)
    requires exists k :: 0 <= k < |store| && SamePair(body.userId, body.productId)(store[k])
    ensures var r := Upsert(store, body, freshId);
      r.result.Ok? && |r.state| == |store| && UniquePairs(r.state)
  {
  }

  /** The add-or-update path runs no validator on an existing review: a rating of 10 in the
      body is stored on a valid review, which then fails the schema's maximum of 5. */
  lemma UpsertSkipsValidators(store: Reviews, body: ReviewBody, freshId: ReviewId)
    requires exists k :: 0 <= k < |store| && SamePair(body.userId, body.productId)(store[k])
    requires body.rating == Some(10)
    ensures var r := Upsert(store, body, freshId);
      r.result.Ok? && r.result.value.rating == 10 && !ValidReview(r.result.value)
  {
  }

  /** The same holds for PATCH: a status outside the enum is stored as sent. */
  lemma PatchSkipsValidators(store: Reviews, id: ReviewId, st: string)
    requires exists k :: 0 <= k < |store| && store[k].id == id
    requires st !in ReviewStatuses
    ensures var r := Patch(store, Some(id), Changes(Some(st), None, None, None));
      r.result.Ok? && r.result.value.status == st && !ValidReview(r.result.value)
  {
  }

  /** A patch that hides a review (any status but "active") takes it out of the public
      listing, and it stays in the administrator's. */
  lemma PatchHidesFromPublic(store: Reviews, id: ReviewId, st: string)
    requires UniqueIds(store)
    requires exists k :: 0 <= k < |store| && store[k].id == id
    requires st != "active"
    ensures var r := Patch(store, Some(id), Changes(Some(st), None, None, None));
      && (forall rv :: rv in ListActive(r.state) ==> rv.id != id)
      && (exists rv :: rv in ListAll(r.state) && rv.id == id)
  {
    var r := Patch(store, Some(id), Changes(Some(st), None, None, None));
    var i := FirstIndex(store, HasReviewId(id)).value;
    assert r.state[i].id == id && r.state[i].status == st;
    forall rv | rv in ListActive(r.state)
      ensures rv.id != id
    {
      var k :| 0 <= k < |r.state| && r.state[k] == rv;
      if k != i {
        assert r.state[k] == store[k];
      }
    }
    assert r.state[i] in ListAll(r.state);
  }

  /** Once deleted, a review can be neither patched nor deleted again. */
  lemma DeleteThenPatch(store: Reviews, id: ReviewId, ch: Changes)
    requires UniqueIds(store)
    requires DeleteReview(store, id).result.Ok?
    ensures var s := DeleteReview(store, id).state;
      Patch(s, Some(id), ch) == Reply(s, Err(ReviewNotFound))
      && DeleteReview(s, id) == Reply(s, Err(ReviewNotFound))
  {
    var s := DeleteReview(store, id).state;
    var i := FirstIndex(store, HasReviewId(id)).value;
    forall k | 0 <= k < |s|
      ensures s[k].id != id
    {
      assert s[k] == store[if k < i then k else k + 1];
    }
  }

  /** A new review is saved only when the body names a title, a rating from 1 to 5 and a
      description: the insert path is the only one the validators guard. */
  lemma InsertIsValidated(store: Reviews, body: ReviewBody, freshId: ReviewId)
    requires forall k :: 0 <= k < |store| ==> !SamePair(body.userId, body.productId)(store[k])
    requires Upsert(store, body, freshId).result.Ok?
    ensures var rv := Upsert(store, body, freshId).result.value;
      && ValidReview(rv)
      && body.userId.Some? && body.productId.Some?
      && body.title.Some? && body.rating.Some? && body.description.Some?
      && 1 <= body.rating.value <= 5
  {
    NewReviewRequiredFields(freshId, body);
  }

  /** A body without either id matches the first review in the collection, which the
      body's fields then overwrite, unvalidated. */
  lemma UpsertWithoutIdsUpdatesFirst(store: Reviews, body: ReviewBody, freshId: ReviewId)
    requires body.userId.None? && body.productId.None?
    requires |store| > 0
    ensures var rv := Apply(store[0], BodyChanges(body));
      Upsert(store, body, freshId) == Reply(store[0 := rv], Ok(rv))
  {
    assert SamePair(None, None)(store[0]);
  }

  /** A body that names a product but no user overwrites that product's first review,
      whoever wrote it; the review keeps its author. */
  lemma UpsertWithoutUserOverwritesAnyAuthor(store: Reviews, body: ReviewBody, freshId: ReviewId, k: nat)
    requires body.userId.None? && body.productId.Some?
    requires k < |store| && store[k].productId == body.productId.value
    ensures var i := FirstIndex(store, OfProduct(body.productId.value));
      var r := Upsert(store, body, freshId);
      && i.Some?
      && r.result == Ok(Apply(store[i.value], BodyChanges(body)))
      && r.result.value.userId == store[i.value].userId
      && r.state == store[i.value := r.result.value]
  {
    var p := body.productId.value;
    assert forall rv :: SamePair(None, Some(p))(rv) == OfProduct(p)(rv);
    assert OfProduct(p)(store[k]);
    var i := FirstIndex(store, OfProduct(p)).value;
    FirstIndexSame(store, SamePair(None, Some(p)), OfProduct(p));
  }

  /** A PATCH body without `_id` rewrites the first review in the collection. */
  lemma PatchWithoutIdUpdatesFirst(store: Reviews, ch: Changes)
    requires |store| > 0
    ensures Patch(store, None, ch) == Reply(store[0 := Apply(store[0], ch)], Ok(Apply(store[0], ch)))
    ensures Patch(store, None, ch).result.value.id == store[0].id
  {
  }
}

=== FILE: review_router.dfy ===
/** The review handlers: add-or-update, patch, delete, the two listings and the per-product
    listing sorted by rating. Both updates go through `findByIdAndUpdate`, so no validator
    runs on them; only the insert of a new review is validated. */
module ReviewRouter {
  import opened Results
  import opened Collections
  import opened Sorting
  import opened ReviewSchema

  /** The reviews collection in natural order. */
  type Reviews = seq<Review>

  /** `SaveFailed` is a failed insert (answered 500); `ReviewNotFound` is the 404 of patch
      and delete; `LookupFailed` is the 500 of the per-product listing, whose lookup does
      not exist. */
  datatype ReviewError = SaveFailed | ReviewNotFound | LookupFailed

  /** The filter `{ userId, productId }` of `getReviewByUserAndProduct`, with the body's
      values; an absent one is dropped, so a body without either id matches every review. */
  function SamePair(userId: Option<string>, productId: Option<string>): Review -> bool {
    (rv: Review) => KeyMatches(userId, rv.userId) && KeyMatches(productId, rv.productId)
  }

  /** The filter `{ _id }` of `findByIdAndUpdate` and `findByIdAndDelete`. */
  function HasReviewId(id: ReviewId): Review -> bool {
    (rv: Review) => rv.id == id
  }

  /** The filter `{ _id }` that `findByIdAndUpdate` builds from the body's `_id`. Unlike
      `findById`, it does not turn an absent id into `null`, so the key is dropped and
      every review matches. */
  function IdKey(id: Option<ReviewId>): Review -> bool {
    match id
    case None => (rv: Review) => true
    case Some(i) => HasReviewId(i)
  }

  /** The filter `{ productId }` of the per-product listing. */
  function OfProduct(productId: string): Review -> bool {
    (rv: Review) => rv.productId == productId
  }

  /** The sort key of the per-product listing. */
  function RatingOf(rv: Review): int {
    rv.rating
  }

  /** No two reviews share an `_id`. */
  predicate UniqueIds(store: Reviews) {
    forall i, j :: 0 <= i < j < |store| ==> store[i].id != store[j].id
  }

  /** No user has two reviews of one product. */
  predicate UniquePairs(store: Reviews) {
    forall i, j :: 0 <= i < j < |store| ==>
      (store[i].userId, store[i].productId) != (store[j].userId, store[j].productId)
  }

  /** The fields an update may set; `None` is a key whose value is `undefined`, which the
      update drops. */
  datatype Changes = Changes(
    status: Option<string>,
    title: Option<string>,
    rating: Option<int>,
    description: Option<string>
  )

  /** The update that `req.body` of the add-or-update handler makes: its `userId` and
      `productId` equal the matched review's, so only these four keys can change anything. */
  function BodyChanges(body: ReviewBody): Changes {
    Changes(body.status, body.title, body.rating, body.description)
  }

  /** `$set` of the present keys: the id, author and product never change, and each field
      is the new value when one is given and the old one otherwise. */
  function Apply(rv: Review, ch: Changes): (r: Review)
    ensures r.id == rv.id && r.userId == rv.userId && r.productId == rv.productId
    ensures r.status == if ch.status.Some? then ch.status.value else rv.status
    ensures r.title == if ch.title.Some? then ch.title.value else rv.title
    ensures r.rating == if ch.rating.Some? then ch.rating.value else rv.rating
    ensures r.description == if ch.description.Some? then ch.description.value else rv.description
    ensures ch == Changes(None, None, None, None) ==> r == rv
  {
    rv.(title := ch.title.GetOr(rv.title), rating := ch.rating.GetOr(rv.rating),
        description := ch.description.GetOr(rv.description), status := ch.status.GetOr(rv.status))
  }

  /** Applying the same changes twice is applying them once. */
  lemma ApplyIdempotent(rv: Review, ch: Changes)
    ensures Apply(Apply(rv, ch), ch) == Apply(rv, ch)
  {
  }

  /** A new review built from a body already carries what that body would set on it. */
  lemma ApplyBodyToNewReview(id: ReviewId, body: ReviewBody)
    ensures Apply(NewReview(id, body), BodyChanges(body)) == NewReview(id, body)
  {
  }

  /** `findByIdAndUpdate(_id, changes, { new: true })`: the review with that id, changed,
      or not found. No validator runs. */
  function UpdateById(store: Reviews, id: ReviewId, ch: Changes): (r: Reply<Reviews, Review, ReviewError>)
    ensures r.result.Ok? <==> exists k :: 0 <= k < |store| && store[k].id == id
    ensures r.result.Err? ==> r == Reply(store, Err(ReviewNotFound))
    ensures r.result.Ok? ==>
      var i := FirstIndex(store, HasReviewId(id)).value;
      && r.result.value == Apply(store[i], ch)
      && |r.state| == |store|
      && r.state[i] == r.result.value
      && forall k :: 0 <= k < |store| && k != i ==> r.state[k] == store[k]
    ensures UniqueIds(store) ==> UniqueIds(r.state)
    ensures UniquePairs(store) ==> UniquePairs(r.state)
  {
    match FirstIndex(store, HasReviewId(id))
    case None => Reply(store, Err(ReviewNotFound))
    case Some(i) =>
      var rv := Apply(store[i], ch);
      Reply(store[i := rv], Ok(rv))
  }

  /** POST /: the first review by the body's user of the body's product is updated with
      the body, unvalidated; without one a new review with the fresh id `freshId` is
      inserted, and the insert fails when a validator refuses it or the id is taken. */
  function Upsert(store: Reviews, body: ReviewBody, freshId: ReviewId): (r: Reply<Reviews, Review, ReviewError>)
    ensures FirstIndex(store, SamePair(body.userId, body.productId)).Some? ==>
      var i := FirstIndex(store, SamePair(body.userId, body.productId)).value;
      && r.result == Ok(Apply(store[i], BodyChanges(body)))
      && |r.state| == |store|
      && r.state[i] == r.result.value
      && forall k :: 0 <= k < |store| && k != i ==> r.state[k] == store[k]
    ensures FirstIndex(store, SamePair(body.userId, body.productId)).None? ==>
      && (r.result.Ok? <==>
            ValidReview(NewReview(freshId, body)) && forall k :: 0 <= k < |store| ==> store[k].id != freshId)
      && (r.result.Ok? ==> r == Reply(store + [NewReview(freshId, body)], Ok(NewReview(freshId, body))))
    ensures r.result.Err? ==> r == Reply(store, Err(SaveFailed))
    ensures r.result.Ok? ==> SamePair(body.userId, body.productId)(r.result.value)
    ensures body.userId.None? || body.productId.None? ==> |r.state| == |store|
    ensures UniqueIds(store) ==> UniqueIds(r.state)
    ensures UniquePairs(store) ==> UniquePairs(r.state)
  {
    match FirstIndex(store, SamePair(body.userId, body.productId))
    case Some(i) =>
      var rv := Apply(store[i], BodyChanges(body));
      Reply(store[i := rv], Ok(rv))
    case None =>
      var rv := NewReview(freshId, body);
      if !ValidReview(rv) || FirstIndex(store, HasReviewId(freshId)).Some? then Reply(store, Err(SaveFailed))
      else
        assert SamePair(body.userId, body.productId)(rv);
        Reply(store + [rv], Ok(rv))
  }

  /** PATCH /: the review with the body's `_id` gets the body's status, title, rating and
      description; keys the body leaves out keep their values. A body without `_id`
      rewrites the first review in the collection. */
  function Patch(store: Reviews, id: Option<ReviewId>, ch: Changes): (r: Reply<Reviews, Review, ReviewError>)
    ensures r.result.Ok? <==> exists k :: 0 <= k < |store| && KeyMatches(id, store[k].id)
    ensures r.result.Err? ==> r == Reply(store, Err(ReviewNotFound))
    ensures r.result.Ok? ==>
      var i := FirstIndex(store, IdKey(id)).value;
      && r.result.value == Apply(store[i], ch)
      && r.state == store[i := r.result.value]
    ensures id.Some? ==> r == UpdateById(store, id.value, ch)
    ensures id.None? && |store| > 0 ==> r == Reply(store[0 := Apply(store[0], ch)], Ok(Apply(store[0], ch)))
    ensures UniqueIds(store) ==> UniqueIds(r.state)
    ensures UniquePairs(store) ==> UniquePairs(r.state)
  {
    match id
    case Some(i) => UpdateById(store, i, ch)
    case None =>
      if |store| == 0 then Reply(store, Err(ReviewNotFound))
      else
        var rv := Apply(store[0], ch);
        assert forall a :: 0 < a < |store| ==> store[0 := rv][a] == store[a];
        Reply(store[0 := rv], Ok(rv))
  }

  /** Removing one review keeps ids and pairs unique. */
  lemma RemoveKeepsUnique(store: Reviews, i: nat)
    requires i < |store|
    ensures UniqueIds(store) ==> UniqueIds(RemoveAt(store, i))
    ensures UniquePairs(store) ==> UniquePairs(RemoveAt(store, i))
  {
    var rest := RemoveAt(store, i);
    forall a, b | 0 <= a < b < |rest|
      ensures rest[a] == store[if a < i then a else a + 1]
      ensures rest[b] == store[if b < i then b else b + 1]
    {
    }
  }

  /** DELETE /:id: removes the review with that id and returns it. */
  function DeleteReview(store: Reviews, id: ReviewId): (r: Reply<Reviews, Review, ReviewError>)
    ensures r.result.Ok? <==> exists k :: 0 <= k < |store| && store[k].id == id
    ensures r.result.Err? ==> r == Reply(store, Err(ReviewNotFound))
    ensures r.result.Ok? ==>
      && r.result.value.id == id
      && r.state == RemoveAt(store, FirstIndex(store, HasReviewId(id)).value)
      && |r.state| == |store| - 1
      && multiset(r.state) == multiset(store) - multiset{r.result.value}
    ensures UniqueIds(store) ==> UniqueIds(r.state)
    ensures UniquePairs(store) ==> UniquePairs(r.state)
  {
    match FirstIndex(store, HasReviewId(id))
    case None => Reply(store, Err(ReviewNotFound))
    case Some(i) =>
      RemoveKeepsUnique(store, i);
      Reply(RemoveAt(store, i), Ok(store[i]))
  }

  /** `getAllReviews(filter)`: the empty filter matches every review; a status filter keeps
      the reviews with that status, each as often as it is stored. */
  function FindReviews(store: Reviews, status: Option<string>): (r: Reviews)
    ensures status.None? ==> r == store
    ensures status.Some? ==> forall rv :: rv in r <==> rv in store && rv.status == status.value
  {
    match status
    case None => store
    case Some(st) => Filter(store, (rv: Review) => rv.status == st)
  }

  /** GET /all: every review, for the administrator. */
  function ListAll(store: Reviews): (r: Reviews)
    ensures |r| == |store| && multiset(r) == multiset(store)
  {
    FindReviews(store, None)
  }

  /** GET /: the active reviews, for the public. */
  function ListActive(store: Reviews): (r: Reviews)
    ensures forall rv :: rv in r <==> rv in store && rv.status == "active"
  {
    FindReviews(store, Some("active"))
  }

  /** The public listing hides nothing active and shows each active review as often as it
      is stored; a review patched to any other status disappears from it. */
  lemma ListActiveCounts(store: Reviews, rv: Review)
    ensures multiset(ListActive(store))[rv] == if rv.status == "active" then multiset(store)[rv] else 0
  {
    FilterCount(store, (x: Review) => x.status == "active", rv);
  }

  /** GET /product/:productId: that product's reviews, highest rating first; equal ratings
      keep the order the query returned them in. */
  function ForProduct(store: Reviews, productId: string): (r: Reviews)
    ensures SortedDesc(r, RatingOf)
    ensures forall rv :: rv in r <==> rv in store && rv.productId == productId
    ensures multiset(r) == multiset(Filter(store, OfProduct(productId)))
  {
    var f := Filter(store, OfProduct(productId));
    var r := SortDesc(f, RatingOf);
    forall rv
      ensures rv in r <==> rv in store && rv.productId == productId
    {
      assert rv in r <==> rv in multiset(r);
      assert rv in f <==> rv in multiset(f);
    }
    r
  }

  /** The per-product listing as written: the route calls `getReviewsByProductId`, which the
      review model never defines, so it reaches neither the query nor the sort and answers
      with the error of its catch. */
  function ForProductAsWritten(store: Reviews, productId: string): (r: Result<Reviews, ReviewError>)
    ensures r.Err?
  {
    Err(LookupFailed)
  }

  /** For any product that has reviews, the listing as written returns none of them, while
      the intended listing returns every one. */
  lemma MissingLookupHidesReviews(store: Reviews, productId: string, rv: Review)
    requires rv in store && rv.productId == productId
    ensures ForProductAsWritten(store, productId).Err?
    ensures rv in ForProduct(store, productId)
  {
  }

  /** The per-product listing holds each of the product's reviews as often as it is stored,
      and among reviews with the same rating it keeps the stored order. */
  lemma ForProductContentsAndStability(store: Reviews, productId: string, rv: Review, k: int)
    ensures multiset(ForProduct(store, productId))[rv] ==
      if rv.productId == productId then multiset(store)[rv] else 0
    ensures WithKey(ForProduct(store, productId), RatingOf, k) ==
      WithKey(Filter(store, OfProduct(productId)), RatingOf, k)
  {
    FilterCount(store, OfProduct(productId), rv);
    SortDescStable(Filter(store, OfProduct(productId)), RatingOf, k);
  }
}

=== FILE: review_schema.dfy ===
/** Review documents: required fields, the rating range, and the status enum with its
    default. */
module ReviewSchema {
  import opened Results

  type ReviewId = string

  const ReviewStatuses := ["active", "inactive"]

  const DefaultReviewStatus := "active"

  const MinRating := 1
  const MaxRating := 5

  /** A stored review; `userId` and `productId` are the ids of the author and the product. */
  datatype Review = Review(
    id: ReviewId,
    userId: string,
    productId: string,
    title: string,
    rating: int,
    description: string,
    status: string
  )

  /** Everything `save()` checks: four required fields, a rating from 1 to 5, and a status
      from the enum. */
  predicate ValidReview(r: Review) {
    && r.userId != "" && r.productId != "" && r.title != "" && r.description != ""
    && MinRating <= r.rating <= MaxRating
    && r.status in ReviewStatuses
  }

  /** The keys a review body may carry; `None` is a key left out. */
  datatype ReviewBody = ReviewBody(
    userId: Option<string>,
    productId: Option<string>,
    title: Option<string>,
    rating: Option<int>,
    description: Option<string>,
    status: Option<string>
  )

  /** A new review document. A missing status takes the default; a missing string field is
      the empty string and a missing rating is 0, which the validators refuse just as they
      refuse the missing key. */
  function NewReview(id: ReviewId, body: ReviewBody): (r: Review)
    ensures r.status == if body.status.Some? then body.status.value else DefaultReviewStatus
    ensures body.userId.Some? ==> r.userId == body.userId.value
    ensures body.productId.Some? ==> r.productId == body.productId.value
    ensures body.userId.None? ==> r.userId == ""
    ensures body.productId.None? ==> r.productId == ""
    ensures body.rating.None? ==> r.rating < MinRating
  {
    Review(id, body.userId.GetOr(""), body.productId.GetOr(""), body.title.GetOr(""),
           body.rating.GetOr(0), body.description.GetOr(""), body.status.GetOr(DefaultReviewStatus))
  }

  /** A body that leaves out any of the ids, the title, the rating or the description can
      never be saved as a new review, and one that leaves out the status is saved as active. */
  lemma NewReviewRequiredFields(id: ReviewId, body: ReviewBody)
    ensures body.userId.None? || body.productId.None? ==> !ValidReview(NewReview(id, body))
    ensures body.title.None? || body.rating.None? || body.description.None? ==>
      !ValidReview(NewReview(id, body))
    ensures body.status.None? ==> NewReview(id, body).status == DefaultReviewStatus
    ensures ValidReview(NewReview(id, body)) ==> NewReview(id, body).status in ReviewStatuses
  {
  }
}

=== FILE: session_store.dfy ===
/** The one-time sessions behind the e-mail verification link and the password-reset
    code, and the filters the user routes build from request bodies to consume them. The
    session model itself is not part of this model: `deleteSession(filter)` is taken to
    remove and return the first session its filter matches. */
module SessionStore {
  import opened Results
  import opened Collections

  /** A stored session: the token or code, the e-mail it was issued for, and its type;
      reset codes carry `"otp"`, verification sessions are stored without a type. */
  datatype Session = Session(token: string, associate: string, kind: Option<string>)

  /** The filter `{ token, associate, type }` with the values a route read from its body;
      each absent value is dropped from the query. */
  function SessionQuery(token: Option<string>, associate: Option<string>, kind: Option<string>)
    : Session -> bool
  {
    (s: Session) => KeyMatches(token, s.token) && KeyMatches(associate, s.associate)
                    && (kind.None? || s.kind == kind)
  }

  /** A query with no key left matches any stored session. */
  lemma EmptyQueryMatchesAny(sessions: seq<Session>)
    ensures FindFirst(sessions, SessionQuery(None, None, None)).Some? <==> |sessions| > 0
    ensures |sessions| > 0 ==> FindFirst(sessions, SessionQuery(None, None, None)) == Some(sessions[0])
  {
    if |sessions| > 0 {
      assert SessionQuery(None, None, None)(sessions[0]);
    }
  }

  /** A reset query without a code matches any pending code of that e-mail, whatever the
      code is. */
  lemma CodeOmittedMatchesPending(sessions: seq<Session>, code: string, email: string)
    requires Session(code, email, Some("otp")) in sessions
    ensures FindFirst(sessions, SessionQuery(None, Some(email), Some("otp"))).Some?
    ensures FindFirst(sessions, SessionQuery(None, Some(email), Some("otp"))).value.associate == email
  {
    assert SessionQuery(None, Some(email), Some("otp"))(Session(code, email, Some("otp")));
  }
}

=== FILE: sorting.dfy ===
/** Stable descending sort by an integer key, as `Array#sort` with a `(a, b) => key(b) - key(a)`
    comparator and MongoDB's `sort({ key: -1 })` order their results. */
module Sorting {
  /** Keys never increase from left to right. */
  predicate SortedDesc<T>(s: seq<T>, key: T -> int) {
    forall i, j :: 0 <= i < j < |s| ==> key(s[i]) >= key(s[j])
  }

  /** Puts `x` into a descending sequence in front of the first element whose key is not
      larger than its own, so it stays ahead of equal keys that came after it. */
  function Insert<T(==)>(x: T, s: seq<T>, key: T -> int): (r: seq<T>)
    requires SortedDesc(s, key)
    ensures SortedDesc(r, key)
    ensures |r| == |s| + 1
    ensures multiset(r) == multiset(s) + multiset{x}
    ensures key(r[0]) == if |s| == 0 || key(s[0]) <= key(x) then key(x) else key(s[0])
  {
    if |s| == 0 || key(s[0]) <= key(x) then [x] + s
    else
      var t := Insert(x, s[1..], key);
      assert s == [s[0]] + s[1..];
      assert multiset(s) == multiset{s[0]} + multiset(s[1..]);
      assert key(t[0]) <= key(s[0]);
      assert forall j :: 0 <= j < |t| ==> key(t[j]) <= key(s[0]);
      [s[0]] + t
  }

  /** Insertion sort: a sorted permutation of `s`. */
  function SortDesc<T(==)>(s: seq<T>, key: T -> int): (r: seq<T>)
    ensures SortedDesc(r, key)
    ensures |r| == |s|
    ensures multiset(r) == multiset(s)
  {
    if |s| == 0 then []
    else
      assert s == [s[0]] + s[1..];
      Insert(s[0], SortDesc(s[1..], key), key)
  }

  /** The elements of `s` whose key is `k`, in order. */
  function WithKey<T>(s: seq<T>, key: T -> int, k: int): seq<T> {
    if |s| == 0 then []
    else (if key(s[0]) == k then [s[0]] else []) + WithKey(s[1..], key, k)
  }

  lemma {:induction false} WithKeyAppend<T>(a: seq<T>, b: seq<T>, key: T -> int, k: int)
    ensures WithKey(a + b, key, k) == WithKey(a, key, k) + WithKey(b, key, k)
  {
    if |a| == 0 {
      assert a + b == b;
    } else {
      var h := if key(a[0]) == k then [a[0]] else [];
      assert (a + b)[0] == a[0] && (a + b)[1..] == a[1..] + b;
      assert WithKey(a + b, key, k) == h + WithKey(a[1..] + b, key, k);
      WithKeyAppend(a[1..], b, key, k);
      assert WithKey(a, key, k) == h + WithKey(a[1..], key, k);
    }
  }

  lemma {:induction false} InsertStable<T>(x: T, s: seq<T>, key: T -> int, k: int)
    requires SortedDesc(s, key)
    ensures WithKey(Insert(x, s, key), key, k) == WithKey([x], key, k) + WithKey(s, key, k)
  {
    if |s| == 0 || key(s[0]) <= key(x) {
      WithKeyAppend([x], s, key, k);
    } else {
      var t := Insert(x, s[1..], key);
      assert Insert(x, s, key) == [s[0]] + t;
      InsertStable(x, s[1..], key, k);
      WithKeyAppend([s[0]], t, key, k);
      WithKeyAppend([s[0]], s[1..], key, k);
      assert [s[0]] + s[1..] == s;
      if key(x) == k {
        assert WithKey([s[0]], key, k) == [];
      } else {
        assert WithKey([x], key, k) == [];
      }
    }
  }

  /** The sort is stable: elements with equal keys keep their relative order. */
  lemma {:induction false} SortDescStable<T>(s: seq<T>, key: T -> int, k: int)
    ensures WithKey(SortDesc(s, key), key, k) == WithKey(s, key, k)
  {
    if |s| > 0 {
      var t := SortDesc(s[1..], key);
      calc {
        WithKey(SortDesc(s, key), key, k);
        WithKey(Insert(s[0], t, key), key, k);
        { InsertStable(s[0], t, key, k); }
        WithKey([s[0]], key, k) + WithKey(t, key, k);
        { SortDescStable(s[1..], key, k); }
        WithKey([s[0]], key, k) + WithKey(s[1..], key, k);
        { WithKeyAppend([s[0]], s[1..], key, k); }
        WithKey([s[0]] + s[1..], key, k);
        { assert [s[0]] + s[1..] == s; }
        WithKey(s, key, k);
      }
    }
  }
}

=== FILE: text.dfy ===
/** The string transformations Mongoose applies through the `trim` and `uppercase`
    schema options, and the character classes the schema patterns use. */
module Text {

  /** White space removed by `String#trim`: the ASCII blanks, line ends, the no-break
      space and the byte-order mark. */
  predicate IsSpace(c: char) {
    c == ' ' || c == '\t' || c == '\n' || c == '\r' || c == '\U{B}' || c == '\U{C}'
    || c == '\U{A0}' || c == '\U{FEFF}'
  }

  predicate IsDigit(c: char) {
    '0' <= c <= '9'
  }

  predicate IsLower(c: char) {
    'a' <= c <= 'z'
  }

  predicate AllSpace(s: string) {
    forall i :: 0 <= i < |s| ==> IsSpace(s[i])
  }

  predicate AllDigits(s: string) {
    forall i :: 0 <= i < |s| ==> IsDigit(s[i])
  }

  /** The length JavaScript reports, in UTF-16 code units: a character outside the Basic
      Multilingual Plane is a surrogate pair and counts twice. Mongoose's `minlength` and
      `maxlength` compare against it. */
  function Utf16Length(s: string): (n: nat)
    ensures |s| <= n <= 2 * |s|
  {
    if |s| == 0 then 0
    else (if (s[0] as int) < 0x1_0000 then 1 else 2) + Utf16Length(s[1..])
  }

  /** On text inside the Basic Multilingual Plane the code-unit length is the character
      count. */
  lemma {:induction false} Utf16LengthOfBmp(s: string)
    requires forall i :: 0 <= i < |s| ==> (s[i] as int) < 0x1_0000
    ensures Utf16Length(s) == |s|
  {
    if |s| > 0 {
      assert forall i :: 0 <= i < |s[1..]| ==> s[1..][i] == s[i + 1];
      Utf16LengthOfBmp(s[1..]);
    }
  }

  /** Neither end of `s` is white space. */
  predicate Trimmed(s: string) {
    |s| == 0 || (!IsSpace(s[0]) && !IsSpace(s[|s| - 1]))
  }

  /** `s` with its leading white space removed. */
  function TrimStart(s: string): (r: string)
    ensures |r| <= |s| && r == s[|s| - |r|..]
    ensures AllSpace(s[..|s| - |r|])
    ensures |r| == 0 || !IsSpace(r[0])
  {
    if |s| > 0 && IsSpace(s[0]) then
      var r := TrimStart(s[1..]);
      SpaceBefore(s, s[1..], r);
      r
    else s
  }

  /** A white-space first character joins the white-space prefix of the rest `t`. */
  lemma SpaceBefore(s: string, t: string, r: string)
    requires |s| > 0 && t == s[1..] && IsSpace(s[0])
    requires |r| <= |t| && r == t[|t| - |r|..] && AllSpace(t[..|t| - |r|])
    ensures r == s[|s| - |r|..] && AllSpace(s[..|s| - |r|])
  {
    var j := |s| - |r|;
    assert forall i :: 1 <= i < j ==> s[..j][i] == t[..|t| - |r|][i - 1];
  }

  /** `s` with its trailing white space removed. */
  function TrimEnd(s: string): (r: string)
    ensures |r| <= |s| && r == s[..|r|]
    ensures AllSpace(s[|r|..])
    ensures |r| == 0 || !IsSpace(r[|r| - 1])
  {
    if |s| > 0 && IsSpace(s[|s| - 1]) then
      var r := TrimEnd(s[..|s| - 1]);
      SpaceAfter(s, |r|);
      r
    else s
  }

  /** A white-space last character joins the white-space suffix of the rest. */
  lemma SpaceAfter(s: string, j: nat)
    requires j < |s| && IsSpace(s[|s| - 1]) && AllSpace(s[..|s| - 1][j..])
    ensures AllSpace(s[j..]) && s[..|s| - 1][..j] == s[..j]
  {
    assert forall i :: j <= i < |s| - 1 ==> s[i] == s[..|s| - 1][j..][i - j];
  }

  /** `String#trim`. */
  function Trim(s: string): (r: string)
    ensures Trimmed(r)
    ensures |r| <= |s|
  {
    TrimEnd(TrimStart(s))
  }

  /** The trimmed string is the one slice of `s` with no white space at either end that
      leaves only white space outside it. */
  lemma TrimIsSlice(s: string)
    ensures var r := Trim(s);
      exists i :: 0 <= i <= |s| - |r| && r == s[i..i + |r|]
                  && AllSpace(s[..i]) && AllSpace(s[i + |r|..])
  {
    var r := Trim(s);
    var t := TrimStart(s);
    var i := |s| - |t|;
    assert r == TrimEnd(t);
    assert AllSpace(s[..i]);
    SuffixSlices(s, i, t, r);
    assert 0 <= i <= |s| - |r| && r == s[i..i + |r|] && AllSpace(s[..i]) && AllSpace(s[i + |r|..]);
  }

  /** Cutting a prefix `r` off the suffix `t` of `s` that starts at `i` is cutting `s`
      itself. */
  lemma SuffixSlices(s: string, i: nat, t: string, r: string)
    requires i <= |s| && t == s[i..]
    requires |r| <= |t| && r == t[..|r|] && AllSpace(t[|r|..])
    ensures i + |r| <= |s| && r == s[i..i + |r|] && AllSpace(s[i + |r|..])
  {
    assert forall j :: 0 <= j < |s| - i - |r| ==> s[i + |r|..][j] == t[|r|..][j];
  }

  /** Trimming a string that has no white space at its ends leaves it as it is. */
  lemma TrimOfTrimmed(s: string)
    requires Trimmed(s)
    ensures Trim(s) == s
  {
  }

  /** The ASCII upper-case form of a character; other characters are unchanged. */
  function UpperChar(c: char): char {
    if IsLower(c) then (c as int - 32) as char else c
  }

  /** `String#toUpperCase`, on the ASCII letters. */
  function Upper(s: string): (r: string)
    ensures |r| == |s|
    ensures forall i :: 0 <= i < |s| ==> r[i] == UpperChar(s[i])
  {
    seq(|s|, i requires 0 <= i < |s| => UpperChar(s[i]))
  }

  /** Upper-casing is idempotent, leaves no lower-case letter, and changes a string exactly
      when it has a lower-case letter. */
  lemma UpperIdempotent(s: string)
    ensures Upper(Upper(s)) == Upper(s)
    ensures forall i :: 0 <= i < |s| ==> !IsLower(Upper(s)[i])
    ensures Upper(s) == s <==> forall i :: 0 <= i < |s| ==> !IsLower(s[i])
  {
    if Upper(s) == s {
      forall i | 0 <= i < |s|
        ensures !IsLower(s[i])
      {
        assert Upper(s)[i] == s[i];
      }
    }
  }

  /** Upper-casing never creates or removes white space. */
  lemma UpperKeepsSpace(c: char)
    ensures IsSpace(UpperChar(c)) <==> IsSpace(c)
  {
  }

  /** Upper-casing keeps a trimmed string trimmed, and leaves no lower-case letter. */
  lemma UpperKeepsTrimmed(t: string)
    requires Trimmed(t)
    ensures Trimmed(Upper(t))
    ensures forall i :: 0 <= i < |t| ==> !IsLower(Upper(t)[i])
  {
    if |t| > 0 {
      UpperKeepsSpace(t[0]);
      UpperKeepsSpace(t[|t| - 1]);
    }
  }

  lemma {:induction false} UpperTrimStart(s: string)
    ensures Upper(TrimStart(s)) == TrimStart(Upper(s))
  {
    if |s| > 0 {
      UpperKeepsSpace(s[0]);
      UpperHead(s);
      if IsSpace(s[0]) {
        UpperTrimStart(s[1..]);
      }
    }
  }

  /** Upper-casing works character by character from the front. */
  lemma UpperHead(s: string)
    requires |s| > 0
    ensures Upper(s)[0] == UpperChar(s[0]) && Upper(s)[1..] == Upper(s[1..])
  {
  }

  lemma {:induction false} UpperTrimEnd(s: string)
    ensures Upper(TrimEnd(s)) == TrimEnd(Upper(s))
  {
    if |s| > 0 {
      UpperKeepsSpace(s[|s| - 1]);
      UpperLast(s);
      if IsSpace(s[|s| - 1]) {
        UpperTrimEnd(s[..|s| - 1]);
      }
    }
  }

  /** Upper-casing works character by character from the back. */
  lemma UpperLast(s: string)
    requires |s| > 0
    ensures Upper(s)[|s| - 1] == UpperChar(s[|s| - 1]) && Upper(s)[..|s| - 1] == Upper(s[..|s| - 1])
  {
  }

  /** The `trim` and `uppercase` setters commute, so the order in which Mongoose applies
      them does not matter. */
  lemma UpperTrimCommute(s: string)
    ensures Upper(Trim(s)) == Trim(Upper(s))
  {
    UpperTrimStart(s);
    UpperTrimEnd(TrimStart(s));
  }
}

=== FILE: user_router.dfy ===
/** The account decisions of the user routes: registration, e-mail verification, login and
    its failure message, password reset, and the admin role and status updates. Hashing
    and password comparison are foreign and come in as parameters; the session collection comes
    in as it stands before the call. */
module UserRouter {
  import opened Results
  import opened Collections
  import opened UserSchema
  import opened SessionStore

  const ValidGenders: seq<string> := ["male", "female", "preferNotToSay"]
  const ValidRoles: seq<string> := ["admin", "user"]
  const ValidStatuses: seq<string> := ["active", "inactive"]

  const NotActiveMessage := "Your account is not active, contact admin"
  const NotVerifiedMessage := "User not verified, please check your email and verify"
  const InvalidLoginMessage := "Invalid login details"

  // ---------------------------------------------------------------- GET /

  datatype AccountError = NotActivated

  /** The signed-in user's own record, with the refresh token blanked out; only an
      active account gets it. */
  function CurrentUser(u: User): (r: Result<User, AccountError>)
    ensures r.Ok? <==> u.status == "active"
    ensures r.Ok? ==> r.value.refreshJWT == "" && r.value.(refreshJWT := u.refreshJWT) == u
  {
    if u.status == "active" then Ok(u.(refreshJWT := "")) else Err(NotActivated)
  }

  // ---------------------------------------------------------------- POST /

  /** A registration request: the user fields as sent (the whole body goes to the
      constructor) and the gender, which the schema does not store. */
  datatype RegisterBody = RegisterBody(fields: UserFields, gender: string)

  datatype RegisterError = InvalidGender | NotSaved(reason: SaveError)

  /** Hashes the password, checks the gender whitelist, then saves the user document. */
  function RegisterFields(users: seq<User>, fields: UserFields, gender: string, id: UserId,
                          hash: string -> string): (r: Reply<seq<User>, User, RegisterError>)
    ensures gender !in ValidGenders ==> r == Reply(users, Err(InvalidGender))
    ensures r.result.Err? ==> r.state == users
    ensures r.result.Ok? ==>
      r.state == users + [r.result.value]
      && r.result.value == NewUser(id, fields.(password := hash(fields.password)))
      && (forall v :: v in users ==> v.email != fields.email)
    ensures r.result.Ok? <==>
      gender in ValidGenders
      && ValidUser(NewUser(id, fields.(password := hash(fields.password))))
      && (forall v :: v in users ==> v.email != fields.email && v.id != id)
    ensures UniqueEmails(users) ==> UniqueEmails(r.state)
  {
    var hashed := fields.(password := hash(fields.password));
    if gender !in ValidGenders then Reply(users, Err(InvalidGender))
    else
      var saved := SaveUser(users, NewUser(id, hashed));
      match saved.result
      case Ok(u) => Reply(saved.state, Ok(u))
      case Err(e) => Reply(saved.state, Err(NotSaved(e)))
  }

  /** Registration as written: every field of the request body reaches the document,
      so a caller may set its own `status`, `role` and `isEmailVerified`. */
  function Register(users: seq<User>, body: RegisterBody, id: UserId, hash: string -> string)
    : (r: Reply<seq<User>, User, RegisterError>)
    ensures body.gender !in ValidGenders ==> r == Reply(users, Err(InvalidGender))
    ensures r.result.Ok? ==>
      r.state == users + [r.result.value]
      && r.result.value.status == body.fields.status.GetOr(DefaultStatus)
      && r.result.value.role == body.fields.role.GetOr(DefaultRole)
      && r.result.value.isEmailVerified == body.fields.isEmailVerified.GetOr(false)
      && r.result.value.refreshJWT == body.fields.refreshJWT.GetOr(DefaultRefreshJWT)
  {
    RegisterFields(users, body.fields, body.gender, id, hash)
  }

  /** Registration as evidently intended: the account-state fields and the refresh token
      always take their schema defaults, whatever the body says. */
  function RegisterCorrected(users: seq<User>, body: RegisterBody, id: UserId, hash: string -> string)
    : (r: Reply<seq<User>, User, RegisterError>)
    ensures body.gender !in ValidGenders ==> r == Reply(users, Err(InvalidGender))
    ensures r.result.Ok? ==>
      r.state == users + [r.result.value]
      && r.result.value.status == DefaultStatus
      && r.result.value.role == DefaultRole
      && !r.result.value.isEmailVerified
      && r.result.value.refreshJWT == DefaultRefreshJWT
  {
    RegisterFields(users, body.fields.(status := None, role := None, isEmailVerified := None, refreshJWT := None),
                   body.gender, id, hash)
  }

  // ---------------------------------------------------------------- POST /login

  /** The tokens are issued for the body's `email`, absent or not. */
  datatype LoginReply = LoggedIn(email: Option<string>) | LoginFailed(message: string)

  /** The account behind `u` may sign in with `password`. */
  predicate MayLogIn(u: User, password: string, matches: (string, string) -> bool) {
    u.status == "active" && u.isEmailVerified && matches(password, u.password)
  }

  /** Login: the lookup by the body's email (an absent email matches every user), the
      gate, then the failure message built by two overriding checks and a fallback. */
  function Login(users: seq<User>, email: Option<string>, password: string,
                 matches: (string, string) -> bool): (r: LoginReply)
    ensures r.LoggedIn? <==>
      FindByEmailKey(users, email).Some? && MayLogIn(FindByEmailKey(users, email).value, password, matches)
    ensures r.LoggedIn? ==> r.email == email
    ensures r.LoginFailed? ==>
      var found := FindByEmailKey(users, email);
      && (r.message == NotVerifiedMessage <==> found.None? || !found.value.isEmailVerified)
      && (r.message == NotActiveMessage <==>
            found.Some? && found.value.isEmailVerified && found.value.status == "inactive")
      && (r.message == InvalidLoginMessage <==>
            found.Some? && found.value.isEmailVerified && found.value.status != "inactive")
  {
    var found := FindByEmailKey(users, email);
    if found.Some? && found.value.status == "active" && found.value.isEmailVerified
       && matches(password, found.value.password)
    then LoggedIn(email)
    else
      var m1 := if found.Some? && found.value.status == "inactive" then NotActiveMessage else "";
      var m2 := if !(found.Some? && found.value.isEmailVerified) then NotVerifiedMessage else m1;
      LoginFailed(if m2 == "" then InvalidLoginMessage else m2)
  }

  // ---------------------------------------------------------------- POST /user-verification

  datatype LinkError = InvalidLink

  /** The filter `{ token: c, associate: e }` that consumes a verification session. */
  function VerificationQuery(code: Option<string>, email: Option<string>): Session -> bool {
    SessionQuery(code, email, None)
  }

  /** Verification as written: the session named by the link is consumed, then the update
      object spells the status key `staus`, which the schema does not know and so drops;
      only `isEmailVerified` is set. Absent body keys widen both filters. */
  function VerifyEmail(users: seq<User>, sessions: seq<Session>, code: Option<string>,
                       email: Option<string>): (r: Reply<seq<User>, User, LinkError>)
    ensures r.result.Ok? <==>
      FindFirst(sessions, VerificationQuery(code, email)).Some? && FindByEmailKey(users, email).Some?
    ensures r.result.Err? ==> r.state == users
    ensures r.result.Ok? ==>
      r.result.value == FindByEmailKey(users, email).value.(isEmailVerified := true)
      && r.result.value.status == FindByEmailKey(users, email).value.status
      && r.state == users[FirstIndex(users, EmailKey(email)).value := r.result.value]
      && r.result.value in r.state && |r.state| == |users|
      && (forall k :: 0 <= k < |users| && !KeyMatches(email, users[k].email) ==> r.state[k] == users[k])
  {
    EmailKeyLookup(users, email);
    if FindFirst(sessions, VerificationQuery(code, email)).None? then Reply(users, Err(InvalidLink))
    else match UpdateFirst(users, EmailKey(email), (u: User) => u.(isEmailVerified := true))
      case None => Reply(users, Err(InvalidLink))
      case Some((s, u)) => Reply(s, Ok(u))
  }

  /** Verification as evidently intended: the account is activated as well. */
  function VerifyEmailCorrected(users: seq<User>, sessions: seq<Session>, code: Option<string>,
                                email: Option<string>): (r: Reply<seq<User>, User, LinkError>)
    ensures r.result.Ok? <==>
      FindFirst(sessions, VerificationQuery(code, email)).Some? && FindByEmailKey(users, email).Some?
    ensures r.result.Err? ==> r.state == users
    ensures r.result.Ok? ==>
      r.result.value == FindByEmailKey(users, email).value.(status := "active", isEmailVerified := true)
      && r.state == users[FirstIndex(users, EmailKey(email)).value := r.result.value]
      && r.result.value in r.state && |r.state| == |users|
      && (forall k :: 0 <= k < |users| && !KeyMatches(email, users[k].email) ==> r.state[k] == users[k])
  {
    EmailKeyLookup(users, email);
    if FindFirst(sessions, VerificationQuery(code, email)).None? then Reply(users, Err(InvalidLink))
    else match UpdateFirst(users, EmailKey(email),
                           (u: User) => u.(status := "active", isEmailVerified := true))
      case None => Reply(users, Err(InvalidLink))
      case Some((s, u)) => Reply(s, Ok(u))
  }

  // ---------------------------------------------------------------- PATCH /password/reset

  /** JavaScript truthiness of a body value: present and not the empty string. */
  predicate Truthy(v: Option<string>) {
    v.Some? && v.value != ""
  }

  /** The guard `(email, otp, password)` as written: a comma expression, whose value is
      its last operand. */
  function ResetGuard(email: Option<string>, otp: Option<string>, password: Option<string>): bool {
    Truthy(password)
  }

  /** The guard as evidently intended: all three fields present. */
  function ResetGuardCorrected(email: Option<string>, otp: Option<string>, password: Option<string>)
    : (ok: bool)
    ensures ok ==> ResetGuard(email, otp, password)
    ensures ResetGuard(email, otp, password) && !ok <==>
      Truthy(password) && (!Truthy(email) || !Truthy(otp))
  {
    Truthy(email) && Truthy(otp) && Truthy(password)
  }

  /** The filter `{ token: otp, associate: email, type: "otp" }` that consumes a reset code. */
  function ResetQuery(email: Option<string>, otp: Option<string>): Session -> bool {
    SessionQuery(otp, email, Some("otp"))
  }

  datatype ResetError = InvalidOtp

  /** Password reset: the guard, the one-time session, then the new hash on the first user
      the body's email matches. Absent keys widen both filters: without a code any pending
      code of the email is consumed, and without an email the first user is rewritten. */
  function ResetPassword(users: seq<User>, sessions: seq<Session>, email: Option<string>,
                         otp: Option<string>, password: Option<string>, hash: string -> string)
    : (r: Reply<seq<User>, User, ResetError>)
    ensures r.result.Ok? <==>
      Truthy(password) && FindFirst(sessions, ResetQuery(email, otp)).Some?
      && FindByEmailKey(users, email).Some?
    ensures r.result.Err? ==> r.state == users
    ensures r.result.Ok? ==>
      r.result.value == FindByEmailKey(users, email).value.(password := hash(password.value))
      && r.state == users[FirstIndex(users, EmailKey(email)).value := r.result.value]
      && (forall k :: 0 <= k < |users| && !KeyMatches(email, users[k].email) ==> r.state[k] == users[k])
  {
    EmailKeyLookup(users, email);
    if !ResetGuard(email, otp, password) || FindFirst(sessions, ResetQuery(email, otp)).None? then
      Reply(users, Err(InvalidOtp))
    else match UpdateFirst(users, EmailKey(email), (u: User) => u.(password := hash(password.value)))
      case None => Reply(users, Err(InvalidOtp))
      case Some((s, u)) => Reply(s, Ok(u))
  }

  /** Password reset with the intended guard: a request missing its email or its one-time
      code is refused before any session is consulted. */
  function ResetPasswordCorrected(users: seq<User>, sessions: seq<Session>, email: Option<string>,
                                  otp: Option<string>, password: Option<string>, hash: string -> string)
    : (r: Reply<seq<User>, User, ResetError>)
    ensures r.result.Ok? <==>
      Truthy(email) && Truthy(otp) && Truthy(password)
      && FindFirst(sessions, ResetQuery(email, otp)).Some? && FindByEmail(users, email.value).Some?
    ensures r.result.Err? ==> r.state == users
    ensures r.result.Ok? ==>
      r.result.value == FindByEmail(users, email.value).value.(password := hash(password.value))
      && r.state == users[FirstIndex(users, HasEmail(email.value)).value := r.result.value]
      && (forall k :: 0 <= k < |users| && users[k].email != email.value ==> r.state[k] == users[k])
    ensures r.result.Ok? ==> r == ResetPassword(users, sessions, email, otp, password, hash)
  {
    if !ResetGuardCorrected(email, otp, password) then Reply(users, Err(InvalidOtp))
    else ResetPassword(users, sessions, email, otp, password, hash)
  }

  // ---------------------------------------------------------------- PATCH /:id/role, /:id/status

  datatype AdminError = RoleRequired | InvalidRole | StatusRequired | InvalidStatus | UserNotFound

  /** Role update: missing role, then invalid role, then unknown user, then the update. */
  function UpdateRole(users: seq<User>, id: UserId, role: string): (r: Reply<seq<User>, User, AdminError>)
    ensures role == "" ==> r.result == Err(RoleRequired)
    ensures role != "" && role != "admin" && role != "user" ==> r.result == Err(InvalidRole)
    ensures (role == "admin" || role == "user") && FindById(users, id).None? ==> r.result == Err(UserNotFound)
    ensures r.result.Ok? <==> (role == "admin" || role == "user") && FindById(users, id).Some?
    ensures r.result.Err? ==> r.state == users
    ensures r.result.Ok? ==>
      r.result.value == FindById(users, id).value.(role := role)
      && r.state == users[FirstIndex(users, HasUserId(id)).value := r.result.value]
      && (forall k :: 0 <= k < |users| && users[k].id != id ==> r.state[k] == users[k])
  {
    if role == "" then Reply(users, Err(RoleRequired))
    else if role !in ValidRoles then Reply(users, Err(InvalidRole))
    else match UpdateFirst(users, HasUserId(id), (u: User) => u.(role := role))
      case None => Reply(users, Err(UserNotFound))
      case Some((s, u)) => Reply(s, Ok(u))
  }

  /** Status update: missing status, then a value outside `active`/`inactive`, then unknown
      user, then the update. */
  function UpdateStatus(users: seq<User>, id: UserId, status: string)
    : (r: Reply<seq<User>, User, AdminError>)
    ensures status == "" ==> r.result == Err(StatusRequired)
    ensures status != "" && status != "active" && status != "inactive" ==> r.result == Err(InvalidStatus)
    ensures (status == "active" || status == "inactive") && FindById(users, id).None? ==>
      r.result == Err(UserNotFound)
    ensures r.result.Ok? <==> (status == "active" || status == "inactive") && FindById(users, id).Some?
    ensures r.result.Err? ==> r.state == users
    ensures r.result.Ok? ==>
      r.result.value == FindById(users, id).value.(status := status)
      && r.state == users[FirstIndex(users, HasUserId(id)).value := r.result.value]
      && (forall k :: 0 <= k < |users| && users[k].id != id ==> r.state[k] == users[k])
  {
    if status == "" then Reply(users, Err(StatusRequired))
    else if status !in ValidStatuses then Reply(users, Err(InvalidStatus))
    else match UpdateFirst(users, HasUserId(id), (u: User) => u.(status := status))
      case None => Reply(users, Err(UserNotFound))
      case Some((s, u)) => Reply(s, Ok(u))
  }
}

=== FILE: user_schema.dfy ===
/** User documents: their fields, the schema defaults, required fields and the unique
    email index, over the user collection in its natural order. */
module UserSchema {
  import opened Results
  import opened Collections

  type UserId = string

  const DefaultStatus := "inactive"
  const DefaultRole := "user"
  const DefaultRefreshJWT := ""

  /** A stored user. `password` holds the bcrypt hash. */
  datatype User = User(
    id: UserId,
    fName: string,
    lName: string,
    email: string,
    password: string,
    status: string,
    role: string,
    refreshJWT: string,
    isEmailVerified: bool
  )

  /** The fields a caller hands to the `User` constructor; `None` is a field left out,
      which then takes its schema default. */
  datatype UserFields = UserFields(
    fName: string,
    lName: string,
    email: string,
    password: string,
    status: Option<string>,
    role: Option<string>,
    isEmailVerified: Option<bool>,
    refreshJWT: Option<string>
  )

  /** A new user document: supplied fields win, absent ones take the defaults
      `status: "inactive"`, `role: "user"`, `refreshJWT: ""`, `isEmailVerified: false`. */
  function NewUser(id: UserId, f: UserFields): User {
    User(id, f.fName, f.lName, f.email, f.password,
         f.status.GetOr(DefaultStatus), f.role.GetOr(DefaultRole),
         f.refreshJWT.GetOr(DefaultRefreshJWT), f.isEmailVerified.GetOr(false))
  }

  /** The required fields are present (`required` rejects an empty string). */
  predicate ValidUser(u: User) {
    u.fName != "" && u.lName != "" && u.email != "" && u.password != ""
  }

  /** The unique index on `email` holds. */
  predicate UniqueEmails(users: seq<User>) {
    forall i, j :: 0 <= i < j < |users| ==> users[i].email != users[j].email
  }

  /** `_id` is unique. */
  predicate UniqueIds(users: seq<User>) {
    forall i, j :: 0 <= i < j < |users| ==> users[i].id != users[j].id
  }

  /** The filter `{ _id }` of `findById` and `findByIdAndUpdate`. */
  function HasUserId(id: UserId): User -> bool {
    (u: User) => u.id == id
  }

  /** The filter `{ email }` of `getAUser` and `updateUser`. */
  function HasEmail(email: string): User -> bool {
    (u: User) => u.email == email
  }

  /** The filter `{ email }` built from a request body: an absent email is dropped from
      the query, which then matches every user. */
  function EmailKey(email: Option<string>): User -> bool {
    match email
    case None => (u: User) => true
    case Some(e) => HasEmail(e)
  }

  function FindById(users: seq<User>, id: UserId): Option<User> {
    FindFirst(users, HasUserId(id))
  }

  function FindByEmail(users: seq<User>, email: string): Option<User> {
    FindFirst(users, HasEmail(email))
  }

  /** `getAUser({ email })` with the email taken from a request body. */
  function FindByEmailKey(users: seq<User>, email: Option<string>): Option<User> {
    FindFirst(users, EmailKey(email))
  }

  /** A present email looks the user up by that email; an absent one finds the first
      user in the collection, whoever it is. */
  lemma EmailKeyLookup(users: seq<User>, email: Option<string>)
    ensures forall u :: EmailKey(email)(u) <==> KeyMatches(email, u.email)
    ensures email.Some? ==> FindByEmailKey(users, email) == FindByEmail(users, email.value)
    ensures email.None? && |users| > 0 ==>
      FirstIndex(users, EmailKey(email)) == Some(0) && FindByEmailKey(users, email) == Some(users[0])
    ensures email.None? && |users| == 0 ==> FindByEmailKey(users, email).None?
  {
  }

  /** Rewriting one user without touching its email or `_id` keeps both unique indexes. */
  lemma ReplaceKeepsIndexes(users: seq<User>, i: nat, v: User)
    requires i < |users| && v.email == users[i].email && v.id == users[i].id
    ensures UniqueEmails(users) ==> UniqueEmails(users[i := v])
    ensures UniqueIds(users) ==> UniqueIds(users[i := v])
  {
    var s := users[i := v];
    forall a | 0 <= a < |s|
      ensures s[a].email == users[a].email && s[a].id == users[a].id
    {
    }
  }

  /** A user whose email no other stored user shares is the one found by that email. */
  lemma FindByEmailOnly(users: seq<User>, u: User)
    requires u in users
    requires forall v :: v in users && v.email == u.email ==> v == u
    ensures FindByEmail(users, u.email) == Some(u)
  {
  }

  /** Under the unique index, the user found by email is the one user with that email. */
  lemma FindByEmailUnique(users: seq<User>, u: User)
    requires UniqueEmails(users) && u in users
    ensures FindByEmail(users, u.email) == Some(u)
  {
    forall v | v in users && v.email == u.email
      ensures v == u
    {
      var i :| 0 <= i < |users| && users[i] == v;
      var j :| 0 <= j < |users| && users[j] == u;
      assert i == j;
    }
    FindByEmailOnly(users, u);
  }

  datatype SaveError = ValidationFailed | DuplicateKey

  /** `save()` of a new user: validation first, then the unique indexes on `email` and `_id`. */
  function SaveUser(users: seq<User>, u: User): (r: Reply<seq<User>, User, SaveError>)
    ensures r.result.Ok? <==>
      ValidUser(u) && (forall v :: v in users ==> v.email != u.email && v.id != u.id)
    ensures r.result.Ok? ==> r.state == users + [u] && r.result.value == u
    ensures r.result.Err? ==> r.state == users
    ensures !ValidUser(u) ==> r.result == Err(ValidationFailed)
    ensures UniqueEmails(users) ==> UniqueEmails(r.state)
    ensures UniqueIds(users) ==> UniqueIds(r.state)
  {
    if !ValidUser(u) then Reply(users, Err(ValidationFailed))
    else if FindByEmail(users, u.email).Some? || FindById(users, u.id).Some? then
      Reply(users, Err(DuplicateKey))
    else Reply(users + [u], Ok(u))
  }

  /** `findOneAndUpdate` / `findByIdAndUpdate`: rewrites the first user matching `p` with
      `change`, and reports `None` when no user matches. No validator runs. */
  function UpdateFirst(users: seq<User>, p: User -> bool, change: User -> User): (r: Option<(seq<User>, User)>)
    ensures r.None? <==> forall u :: u in users ==> !p(u)
    ensures r.Some? ==> (
      var i := FirstIndex(users, p).value;
      r.value.1 == change(users[i]) && r.value.0 == users[i := r.value.1])
    ensures r.Some? ==>
      r.value.1 in r.value.0 && |r.value.0| == |users|
      && forall k :: 0 <= k < |users| && !p(users[k]) ==> r.value.0[k] == users[k]
  {
    match FirstIndex(users, p)
    case None => None
    case Some(i) =>
      var s := users[i := change(users[i])];
      assert s[i] == change(users[i]);
      Some((s, change(users[i])))
  }
}
